=== FILE: README.md ===
# Student Performance Tracker — a Dafny model

The Student Performance Tracker is a single-teacher classroom book. The
teacher does three things:

- registers grades (class groups);
- registers students in those grades, one at a time or from a CSV file;
- records missing work as assignments. Each assignment has a kind, a name, a
  due date with its ISO week number, and the students who did not hand it in.

Every list lives in the browser's `localStorage` under its own key:
`grades`, `students`, `assignments` and `teacherInfo`. The teacher profile
is captured once by a setup form. An older stand-alone page, `script.js`,
keeps its own grade list of `(number, class letter)` pairs.

This project models that core as pure functions over immutable values:

- **Storage** (`Store`). `localStorage` is a map from key to the stored
  collection. Each screen's load reads one key. Each save writes that key and
  leaves every other key alone.
- **Record shapes and shared helpers.**
  - `Records` holds the record shapes of `src/types.ts`.
  - `Text` covers JavaScript's `trim`, `toLowerCase`/`toUpperCase`,
    `includes` and `split`/`join` on ASCII text.
  - `Seqs` covers `filter` and the subsequence order.
- **Dates** (`Calendar`, `DateText`).
  - Dates of the proleptic Gregorian calendar, numbered as day serials since
    1970-01-01.
  - The ISO week number that `getWeek` computes.
  - The `YYYY-MM-DD` text of the date input.
- **Screens.** One module per component, each with the component's state as a
  datatype and each handler as a function from state to state, storage
  included:
  - `App`, `WelcomeForm`, `GradeManagement`;
  - `StudentManagement` and `StudentRegistry`, plus `IndividualStudentForm`,
    `BulkStudentUpload` and `StudentList`;
  - `AssignmentManagement`, `AddAssignment`, `StudentSelector` and
    `AssignmentList`;
  - `ViewState` for the expanded/collapsed flags;
  - `LegacyGrades` for `script.js`.
- **What is passed in rather than computed.** Fresh ids, the current day and
  the contents of chosen files are parameters: random UUIDs, `Date.now()`
  plus `Math.random()`, and the finished `FileReader` or `file.text()` reads.

Three properties of the code are easy to miss:

- The React grade screen has no range, letter or duplicate check. It accepts
  any non-blank name, and a repeated name is added again
  (`GradeManagement.NoDuplicateCheck`). Only the legacy page (`LegacyGrades`)
  checks for a number in 1..12, a single-letter class and an existing pair.
- An assignment's students are an ordered list of ids. The picker's toggle
  keeps that list free of repeats (`StudentSelector.ToggleDistinct`).
- `getWeek` follows the ISO week rule for every year from 101 on. It departs
  from it for the years 1..100 (see Findings).

## Model

| member | source | states |
|---|---|---|
| Calendar.IsoWeek | src/components/AddAssignment.tsx:35-41 | the week number of a date always lies in 1..53 |
| Calendar.IsoWeekMatchesReference | src/components/AddAssignment.tsx:35-41 | `getWeek`'s shift-to-Thursday computation is the ISO 8601 week: the number of whole weeks from the Monday of week 1 of the ISO year (the week holding January 4) plus one |
| Calendar.SameWeekSameNumber | src/components/AddAssignment.tsx:37-38 | two dates in the same Monday-to-Sunday week get the same week number and the same ISO year |
| Calendar.SameNumberSameWeek | src/components/AddAssignment.tsx:38-40 | two dates of one ISO year with the same week number lie in the same Monday-to-Sunday week |
| Calendar.IsoWeekExampleYearOpening | src/components/AddAssignment.tsx:35-41 | 2024-01-01, a Monday, is week 1 |
| Calendar.IsoWeekExampleSunday | src/components/AddAssignment.tsx:37 | 2023-12-31, a Sunday (day 0 read as 7), is week 52 of 2023 |
| Calendar.IsoWeekExampleYearEnd | src/components/AddAssignment.tsx:38-39 | 2024-12-30 is week 1 of ISO year 2025, because its Thursday falls in 2025 |
| Calendar.SerialOfNextDay | src/components/AddAssignment.tsx:36 | consecutive calendar days get consecutive day serials, across month and year ends |
| Calendar.SerialInjective | src/components/AddAssignment.tsx:36 | distinct valid dates get distinct day serials |
| Calendar.AsWrittenAgreesOutsideTwoDigitYears | src/components/AddAssignment.tsx:36-40 | `getWeek` as written equals the ISO week for every year from 101 up and from -2 down |
| Calendar.AsWrittenYear100Counterexample | src/components/AddAssignment.tsx:36-39 | for 0100-01-01 `getWeek` as written is negative, while its ISO week is 53 |
| DateText.Parse | src/components/AddAssignment.tsx:133 | a date is read exactly when the text is digits, a dash, two digits, a dash and two digits (at least four year digits) spelling a real calendar day, and the date read is the one those digits spell; malformed text and impossible days are rejected |
| DateText.ShapedSplit | src/components/AddAssignment.tsx:133 | splitting at the dashes yields three digit pieces of lengths at least 4, 2 and 2 exactly when the text has dashes at the sixth and third places from the end with digits between |
| DateText.SlicesOfDate | src/components/AddAssignment.tsx:133 | in `y-mm-dd` the dashes sit at the sixth and third places from the end, and the pieces are the slices around them |
| DateText.FormatParse | src/components/AddAssignment.tsx:21 | the `YYYY-MM-DD` text written for a date reads back as that same date |
| Records.ParseType | src/types.ts:21 | exactly the four kind names are kinds, and each reads back to its own name |
| Records.TypeNameRoundTrip | src/types.ts:21 | every kind's stored name reads back as that kind |
| Store.SaveGrades | src/components/GradeManagement.tsx:15-22 | after saving, loading the grades gives the saved list, and every other key is unchanged |
| Store.SaveStudents | src/components/StudentManagement.tsx:16-18 | after saving, loading the students gives the saved list, and every other key is unchanged |
| Store.SaveAssignments | src/components/AssignmentManagement.tsx:28-30 | after saving, loading the assignments gives the saved list, and every other key is unchanged |
| Store.SaveProfile | src/App.tsx:25-29 | after saving, loading the profile gives it back, and every other key is unchanged |
| Store.SaveLegacyGrades | script.js:141 | after saving, the legacy page's load gives the saved pairs, and every other key is unchanged |
| Text.Trim | src/components/BulkStudentUpload.tsx:52 | the result is a contiguous slice of the input with no space at either end; it is empty exactly when the input is all spaces |
| Text.TrimIdempotent | src/components/IndividualStudentForm.tsx:128 | trimming twice is trimming once |
| Text.IsBlank | src/components/GradeManagement.tsx:27 | `!s.trim()` holds exactly when every character is a space |
| Text.ToLowerIdempotent | src/components/StudentSelector.tsx:22 | lowering an already lowered text changes nothing |
| Text.ToUpperKeepsBlank | script.js:157 | an upper-cased text is blank exactly when the original is |
| Text.ToLower | src/components/StudentSelector.tsx:22 | each character is lowered in place, the length is kept, and no capital A-Z remains |
| Text.ToUpper | script.js:157 | each character is raised in place, the length is kept, and no small a-z remains |
| Text.Contains | src/components/StudentSelector.tsx:22 | `includes` holds exactly when the needle occurs at some position of the text |
| Text.Split | src/components/BulkStudentUpload.tsx:45 | there is at least one piece and no piece holds the separator |
| Text.ContainsEmpty | src/components/StudentSelector.tsx:22 | every text includes the empty search term |
| Text.JoinSplit | src/components/BulkStudentUpload.tsx:45 | joining the pieces of a split with the separator gives back the text |
| Text.SplitJoin | src/components/BulkStudentUpload.tsx:45 | splitting a join of separator-free pieces gives back those pieces |
| Seqs.Filter | src/components/StudentManagement.tsx:25 | the filtered list holds exactly the elements that pass; its length is their count |
| Seqs.FilterIsSubsequence | src/components/StudentManagement.tsx:25 | filtering keeps the survivors in their original order |
| Seqs.FilterAppend | src/components/BulkStudentUpload.tsx:48 | filtering a concatenation is concatenating the filtered parts |
| Seqs.FilterIdempotent | src/components/AssignmentManagement.tsx:38 | filtering twice by the same test is filtering once |
| Seqs.FilterFilter | src/components/StudentSelector.tsx:19-23 | filtering by one test and then another is filtering once by a test asking both |
| Seqs.FilterDistinct | script.js:147-149 | filtering a list without repeats leaves a list without repeats |
| Seqs.SubsequenceTransitive | src/components/StudentSelector.tsx:19-23 | a subsequence of a subsequence is a subsequence |
| BulkStudentUpload.EmailField | src/components/BulkStudentUpload.tsx:53 | the email is present exactly when a second column exists and is not blank, and a present email is non-empty with no space at either end |
| BulkStudentUpload.RowStudent | src/components/BulkStudentUpload.tsx:50-55 | a kept row becomes a student of the chosen grade whose name is its first column trimmed, never empty |
| BulkStudentUpload.ParseStudents | src/components/BulkStudentUpload.tsx:45-55 | one student per kept row after the header, in row order, each in the chosen grade, with a non-empty trimmed name |
| BulkStudentUpload.HeaderIgnored | src/components/BulkStudentUpload.tsx:45-48 | changing the first line of the file never changes the students it yields |
| BulkStudentUpload.RowContribution | src/components/BulkStudentUpload.tsx:48 | a row whose name column is blank yields nothing, and any other row yields exactly one student |
| BulkStudentUpload.SkipsBlankRow | src/components/BulkStudentUpload.tsx:48-55 | in any four-line file whose third line has an empty name, that row is skipped and the two named rows become students |
| BulkStudentUpload.Import | src/components/BulkStudentUpload.tsx:29-57 | no file changes nothing; no grade and a non-CSV type are refused in that order; the import succeeds exactly when a file, a grade and the CSV type are all present, and then the parsed students are appended after the existing ones |
| BulkStudentUpload.ImportExample | src/components/BulkStudentUpload.tsx:44-57 | the file "Name,Email / John Doe,john@x.com / ,skip@x.com / Jane,jane@x.com" yields exactly John Doe and Jane; the blank-name row is skipped |
| BulkStudentUpload.MountUploader | src/components/BulkStudentUpload.tsx:12-22 | the uploader starts from the stored student list and writes it back |
| BulkStudentUpload.UploadAsWritten | src/components/BulkStudentUpload.tsx:57 | an accepted upload stores the uploader's own list with the new students appended |
| StudentRegistry.Append | src/components/StudentManagement.tsx:21 | the new student goes last and the others keep their places |
| StudentRegistry.Delete | src/components/StudentManagement.tsx:25 | exactly the students with another id remain, in order |
| StudentRegistry.DeleteAbsent | src/components/StudentManagement.tsx:25 | deleting an id no student has changes nothing |
| StudentRegistry.DeleteIdempotent | src/components/StudentManagement.tsx:25 | a second delete of the same id changes nothing more |
| StudentRegistry.Update | src/components/StudentManagement.tsx:28-32 | every student with the updated id is replaced by the update, every other is kept in its place, and the length is kept |
| StudentRegistry.UpdateAbsent | src/components/StudentManagement.tsx:29-31 | updating an id no student has changes nothing |
| StudentRegistry.UpdateIdempotent | src/components/StudentManagement.tsx:29-31 | applying the same update twice is applying it once |
| StudentRegistry.OfGrade | src/components/StudentList.tsx:60-62 | exactly the students of that grade, in order, each record as often as it is stored |
| StudentManagement.Mount | src/components/StudentManagement.tsx:10-18 | the screen starts from the stored students and keeps storage in step with its list |
| StudentManagement.HandleAdd | src/components/StudentManagement.tsx:20-22 | the student is appended and the list stored, other keys untouched |
| StudentManagement.HandleDelete | src/components/StudentManagement.tsx:24-26 | the students with that id are removed; every other record stays, as often as it was stored and in order; the list is stored |
| StudentManagement.HandleUpdate | src/components/StudentManagement.tsx:28-32 | the student with that id is replaced in place and the list stored |
| StudentManagement.HandleDeleteAbsent | src/components/StudentManagement.tsx:24-26 | deleting an unknown id leaves the list as it was |
| StudentManagement.HandleDeleteIdempotent | src/components/StudentManagement.tsx:24-26 | deleting the same id twice is deleting it once |
| StudentManagement.HandleUpdateAbsent | src/components/StudentManagement.tsx:28-32 | updating an unknown id leaves the list as it was |
| StudentManagement.Commit | src/components/StudentManagement.tsx:15-18 | a new list becomes the screen's list and is stored, other keys untouched |
| StudentManagement.OpenPageAsWritten | src/components/StudentManagement.tsx:10-13 | the student screen opens with the stored list and no uploader |
| StudentManagement.OpenBulkAsWritten | src/components/BulkStudentUpload.tsx:12-15 | opening bulk upload gives the uploader its own copy of the stored list; the screen's list is not touched |
| StudentManagement.UploadAsWritten | src/components/StudentManagement.tsx:84 | an upload never changes the student screen's list; with no uploader open nothing changes |
| StudentManagement.DeleteAsWritten | src/components/StudentManagement.tsx:24-26 | a delete stores the screen's own list minus that id, whatever storage held |
| StudentManagement.LostUpdateAsWritten | src/components/StudentManagement.tsx:84 | after opening bulk upload, uploading and then deleting on the student screen, no imported student that was not stored before is still stored |
| StudentManagement.LostUpdateExample | src/components/StudentManagement.tsx:84 | with one grade and one student of it stored, importing the two-student example file into that grade stores three students, and deleting the stored student from the list then leaves none stored |
| StudentManagement.OneStudentLostUpdate | src/components/StudentManagement.tsx:84 | with one student stored, an accepted import stores it and the new ones, and deleting it from the list leaves no student stored |
| StudentManagement.HandleBulkImport | src/components/StudentManagement.tsx:20-22 | an import routed through the screen appends the parsed students to the screen's own list and stores it |
| StudentManagement.ImportSurvivesDelete | src/components/BulkStudentUpload.tsx:57 | with the import routed through the screen, a later delete keeps every imported student with another id in storage |
| StudentSelector.VisibleStudents | src/components/StudentSelector.tsx:19-23 | a student is listed exactly when in the grade and the name contains the search term, ignoring case, in stored order and as often as stored; the two filters together equal one filter asking both |
| StudentSelector.EmptySearchShowsGrade | src/components/StudentSelector.tsx:19-23 | with an empty search the picker lists exactly the grade's students |
| StudentSelector.SearchIgnoresCase | src/components/StudentSelector.tsx:22 | a search term and its lower-case form list the same students |
| StudentSelector.Toggle | src/components/StudentSelector.tsx:25-30 | a selected id is removed, every copy of it, leaving exactly the other entries in order; an unselected one is appended; every other id keeps its membership |
| StudentSelector.ToggleTwice | src/components/StudentSelector.tsx:25-30 | toggling an unselected id twice restores the selection |
| StudentSelector.ToggleDistinct | src/components/StudentSelector.tsx:26-28 | toggling keeps a selection free of repeated ids |
| ViewState.ToggleFlag | src/components/AssignmentList.tsx:30-35 | the toggled group flips and every other flag keeps its value |
| ViewState.ToggleTwice | src/components/StudentList.tsx:38-43 | toggling a group twice restores its expanded state |
| ViewState.FirstToggleExpands | src/components/AssignmentList.tsx:28-35 | a group with no entry yet reads as collapsed, and its first toggle expands it |
| StudentList.StudentsForGrade | src/components/StudentList.tsx:60-62 | exactly the grade's students, in stored order, each as often as stored |
| StudentList.InitialExpanded | src/components/StudentList.tsx:23-30 | every stored grade starts expanded, and no other key is set |
| StudentList.Groups | src/components/StudentList.tsx:74-76 | one group per stored grade, in grade order, holding exactly that grade's students |
| StudentList.DanglingStudentNotListed | src/components/StudentList.tsx:74-75 | a student whose grade is not stored appears in no group |
| StudentList.StoredGradeListed | src/components/StudentList.tsx:74-75 | a student of a stored grade appears in that grade's group |
| StudentList.OpenThenToggle | src/components/StudentList.tsx:23-43 | on opening every group is expanded; a toggle collapses just that grade's groups |
| AssignmentList.GradeAssignments | src/components/AssignmentList.tsx:37-39 | exactly the grade's assignments, in stored order, each as often as stored |
| AssignmentList.Groups | src/components/AssignmentList.tsx:59-63 | only grades with assignments get a group, each holding that grade's assignments; every such grade gets one; the groups follow grade order |
| AssignmentList.ShownGroupFacts | src/components/AssignmentList.tsx:59-63 | each group kept is a grade's group with assignments, and every grade with assignments has its group kept |
| AssignmentList.Show | src/components/AssignmentList.tsx:49-55 | with no assignments the list shows nothing tracked; otherwise it shows the groups |
| AssignmentList.DanglingAssignmentNotShown | src/components/AssignmentList.tsx:59-61 | an assignment whose grade is not stored is in no group |
| AssignmentList.MissingStudents | src/components/AssignmentList.tsx:91-93 | exactly the stored students whose id the assignment lists, in stored order, each as often as stored |
| AssignmentList.MissingCount | src/components/AssignmentList.tsx:112 | the shown count is the number of stored students the assignment lists, never more than the stored students |
| AssignmentList.CountAfterDelete | src/components/AssignmentList.tsx:91-93 | when the assignment lists an id, deleting that id lowers the count by exactly the number of stored students that had it |
| AssignmentList.DeletedStudentNotCounted | src/components/AssignmentList.tsx:91-93 | a deleted student is no longer among an assignment's missing students, though its id stays in the record |
| AssignmentList.FirstToggleOpensOnlyThatGroup | src/components/AssignmentList.tsx:28-35 | every group starts collapsed; a first toggle expands that grade's groups only |
| GradeManagement.Mount | src/components/GradeManagement.tsx:6-22 | the screen starts from the stored grades with an empty form and keeps storage in step |
| GradeManagement.NewGrade | src/components/GradeManagement.tsx:32-36 | the name is kept as typed; the class is present exactly when its field is not empty |
| GradeManagement.Submit | src/components/GradeManagement.tsx:24-42 | a blank name only sets the error; otherwise the grade is appended, the form cleared and the list stored |
| GradeManagement.EnterName | src/components/GradeManagement.tsx:59 | typing changes only the name field; the class field, the error, the list and storage stay |
| GradeManagement.EnterSection | src/components/GradeManagement.tsx:73 | typing changes only the class field; the name field, the error, the list and storage stay |
| GradeManagement.NoDuplicateCheck | src/components/GradeManagement.tsx:24-42 | submitting the same name and class twice stores two grades |
| GradeManagement.SubmitKeepsPersisted | src/components/GradeManagement.tsx:15-22 | storage matches the list after every submit, accepted or refused |
| IndividualStudentForm.ValidateImage | src/components/IndividualStudentForm.tsx:31-44 | an image passes exactly when at most 5 MiB and JPEG, PNG or GIF; the size is checked first |
| IndividualStudentForm.ChooseImage | src/components/IndividualStudentForm.tsx:46-57 | no file or a refused file changes nothing; an accepted one starts processing |
| IndividualStudentForm.ImageRead | src/components/IndividualStudentForm.tsx:59-67 | a finished read stores the picture and ends processing |
| IndividualStudentForm.ImageReadFailed | src/components/IndividualStudentForm.tsx:59-73 | a failed read ends processing; the load-end handler still runs and stores the empty result, so the picture is cleared and the other fields kept |
| IndividualStudentForm.ReadNotStarted | src/components/IndividualStudentForm.tsx:75-81 | when starting the read throws, processing ends and every field is kept |
| IndividualStudentForm.FailedReadDropsPicture | src/components/IndividualStudentForm.tsx:59-73 | a failed read after a successful one leaves no picture, and the next student has none |
| IndividualStudentForm.FindGrade | src/components/IndividualStudentForm.tsx:116 | the first grade with that id if there is one; none exactly when no grade has it |
| IndividualStudentForm.NewStudent | src/components/IndividualStudentForm.tsx:126-132 | the name is trimmed; the email is present exactly when its field is not empty, trimmed; the picture is present exactly when one was read |
| IndividualStudentForm.Submit | src/components/IndividualStudentForm.tsx:98-132 | refused while an image is processing, then for a blank name, a missing grade and an unknown grade, each with its own reason, in that order; otherwise the new student with a non-empty trimmed name |
| IndividualStudentForm.ResetForm | src/components/IndividualStudentForm.tsx:84-96 | every field is emptied |
| IndividualStudentForm.AfterSubmit | src/components/IndividualStudentForm.tsx:134-140 | an accepted submit empties the form; a refused one leaves it as it was |
| IndividualStudentForm.SanitizeEmail | src/components/IndividualStudentForm.tsx:197-201 | the value an email input reports has no line breaks and no whitespace at either end, and is empty exactly when only whitespace was typed |
| IndividualStudentForm.SanitizedEmpty | src/components/IndividualStudentForm.tsx:197-201 | stripping both ends of the line-break-free text empties it exactly when every typed character was whitespace |
| IndividualStudentForm.EnterEmail | src/components/IndividualStudentForm.tsx:201 | the change handler stores the sanitized value and changes no other field |
| IndividualStudentForm.BlankEmailDropped | src/components/IndividualStudentForm.tsx:130 | a student gets no email exactly when only whitespace was typed in the email field; otherwise the trimmed sanitized text |
| WelcomeForm.ChooseLogo | src/components/WelcomeForm.tsx:14-29 | a logo over 5,000,000 bytes only sets the error; any other replaces the logo and clears the error, and a failed read replaces it with the empty result |
| WelcomeForm.Submit | src/components/WelcomeForm.tsx:31-46 | refused for a blank name, a blank application name and a missing logo, in that order; otherwise the three values as typed |
| WelcomeForm.AfterSubmit | src/components/WelcomeForm.tsx:31-44 | a refused submit shows its reason and changes nothing else |
| WelcomeForm.OversizedLogoKeepsLogo | src/components/WelcomeForm.tsx:17-20 | an oversized logo never replaces the accepted one, so the submit outcome is unchanged |
| WelcomeForm.FailedReadDropsLogo | src/components/WelcomeForm.tsx:23-26 | a failed read after a good one clears the logo and the error, so the next submit is refused for the missing logo |
| App.PersistProfile | src/App.tsx:25-29 | only a present profile is written |
| App.Start | src/App.tsx:12-17 | the shell starts with the stored profile on the grades tab |
| App.Render | src/App.tsx:35-50 | the setup form shows exactly when there is no profile; otherwise "grades", "students" and "assignments" show the grade, student and assignment screens, and any other tab shows nothing |
| App.HandleWelcomeComplete | src/App.tsx:31-33 | the completed setup becomes the profile and is stored |
| App.SelectTab | src/App.tsx:63 | choosing a tab changes only the tab |
| App.FirstRun | src/App.tsx:12-37 | on an empty store only setup shows; after setup grade entry shows, and later starts skip setup |
| App.SetupGate | src/App.tsx:35-37 | without a profile no tab gets past the setup form |
| AddAssignment.InitialForm | src/components/AddAssignment.tsx:17-24 | with `getWeek` available when the form first renders, the form opens empty on today's date with today's ISO week |
| AddAssignment.MountAsWritten | src/components/AddAssignment.tsx:17-41 | the first render fails exactly when `getWeek` is not yet installed, and it does not install it; otherwise the form opens empty on today's date |
| AddAssignment.FormNeverOpensAsWritten | src/components/AddAssignment.tsx:22 | starting without `getWeek`, the first render fails and so does every later one |
| AddAssignment.InstalledMountIsInitialForm | src/components/AddAssignment.tsx:17-41 | had `getWeek` been installed first, the form would open as the corrected `InitialForm` for every year from 101 on |
| AddAssignment.OnDateChange | src/components/AddAssignment.tsx:132-139 | with the corrected week: the date text reads back as the chosen day, and the stored week is its ISO week in 1..53 |
| AddAssignment.OnDateChangeAsWritten | src/components/AddAssignment.tsx:132-139 | with `getWeek` as written: the date text reads back as the chosen day, and from year 101 on the handler equals `OnDateChange`, so the week is the date's ISO week |
| AddAssignment.AsWrittenFromYear101 | src/components/AddAssignment.tsx:35-41 | from year 101 on `getWeek` as written gives the ISO week |
| AddAssignment.DateChangeYear100AsWritten | src/components/AddAssignment.tsx:137 | picking 0100-01-01 stores a negative week, not the date's ISO week |
| AddAssignment.OnGradeChange | src/components/AddAssignment.tsx:83 | changing grade sets the grade and keeps every other field, the selected students and the week included |
| AddAssignment.OnNameChange | src/components/AddAssignment.tsx:103 | typing changes only the name; every other field stays |
| AddAssignment.OnNumberChange | src/components/AddAssignment.tsx:117 | typing changes only the number; every other field stays |
| AddAssignment.OnToggleStudent | src/components/AddAssignment.tsx:68-70 | the picker's toggle replaces the selection; every other field stays |
| AddAssignment.Submit | src/components/AddAssignment.tsx:43-66 | refused for a missing grade, a blank name and no students, in that order; otherwise a record with the screen's kind and the form's fields as typed |
| AddAssignment.SubmittedWeekMatchesDate | src/components/AddAssignment.tsx:59-63 | a submitted record's week is the ISO week of its own date |
| AddAssignment.SameWeekIffSameNumber | src/components/AddAssignment.tsx:132-139 | dates in one Monday-to-Sunday week get one number; within an ISO year, one number means one week |
| AssignmentManagement.Mount | src/components/AssignmentManagement.tsx:15-30 | the screen starts from the stored assignments, with homework chosen and the form closed |
| AssignmentManagement.Render | src/components/AssignmentManagement.tsx:46-108 | no grades shows the notice; otherwise the form while adding, else the overview |
| AssignmentManagement.HandleAdd | src/components/AssignmentManagement.tsx:32-35 | the record is appended, the form closes and the list is stored |
| AssignmentManagement.HandleDelete | src/components/AssignmentManagement.tsx:37-39 | exactly the records with another id remain, in order and as often as stored, and the list is stored |
| AssignmentManagement.DeleteAbsentAndIdempotent | src/components/AssignmentManagement.tsx:37-39 | deleting an unknown id changes nothing, and a second delete changes nothing more |
| AssignmentManagement.SelectType | src/components/AssignmentManagement.tsx:41-44 | choosing a kind opens the form with that kind |
| AssignmentManagement.Cancel | src/components/AssignmentManagement.tsx:64-65 | cancel closes the form and changes nothing else |
| AssignmentManagement.SubmitForm | src/components/AssignmentManagement.tsx:71-74 | a refused form changes nothing; an accepted one appends the record the form builds, of the chosen kind, after the unchanged earlier records, and stores the list |
| AssignmentManagement.SelectThenCancel | src/components/AssignmentManagement.tsx:41-44 | choosing a kind and cancelling leaves the list and storage as they were |
| LegacyGrades.ParseInt | script.js:156 | a number is read only when the text holds some (hexadecimal) digit; which number is read is stated by the lemmas below |
| LegacyGrades.ParseIntText | script.js:182 | the decimal text of any integer parses back to it |
| LegacyGrades.ParseIntExamples | script.js:156 | "7.5" reads 7, "0xC" reads 12, " -3" reads -3, and "abc" and "" read nothing |
| LegacyGrades.DigitRunToEnd | script.js:156 | a number written entirely in digits is read whole |
| LegacyGrades.ValidateInput | script.js:155-172 | refused for a missing or zero number, a number outside 1..12 and a class that is not one letter, in that order, each exactly in its case; accepted exactly when the number is in 1..12 and the class is blank or one letter, and then the pair has the class trimmed and upper-cased |
| LegacyGrades.ValidateExamples | script.js:159-172 | "13" is out of range, "0" and "" are missing, "AB" is not a letter, and " a " becomes class "A" |
| LegacyGrades.Load | script.js:95 | the page starts from the stored pairs and writes nothing |
| LegacyGrades.AddGrade | script.js:125-144 | an existing pair only raises the duplicate notice and writes nothing; a new pair is appended and stored |
| LegacyGrades.ClickAdd | script.js:155-177 | a refused input only sets the notice; an accepted new pair is appended, stored and announced; an accepted pair already listed changes neither list nor storage; both inputs are cleared after any accepted input |
| LegacyGrades.DeleteGrade | script.js:146-153 | exactly the pairs other than the given one remain, in order and as often as stored, and the list is stored |
| LegacyGrades.ClickDelete | script.js:179-186 | the card's number read back through `parseInt` deletes exactly that card's pair; every other pair stays, in order and as often as stored |
| LegacyGrades.DeleteAbsent | script.js:146-150 | deleting a pair that is not stored leaves the list as it was |
| LegacyGrades.ClickAddKeepsGood | script.js:125-144 | adding keeps the stored pairs valid and free of repeats |
| LegacyGrades.DeleteKeepsGood | script.js:146-150 | deleting keeps the stored pairs valid and free of repeats |
| LegacyGrades.DuplicateRefused | script.js:126-176 | adding a stored pair again keeps the list and storage, shows the duplicate notice, and still clears both inputs |

## Left out

- Rendering: JSX markup, icons, styling, the toast and notification timers,
  the header and the tab bar. The model keeps only what decides which screen
  or message shows.
- Reading files: `FileReader` and `file.text()` are asynchronous browser I/O.
  A chosen file is a value carrying its size, type and finished contents. The
  read inside `BulkStudentUpload` cannot fail in the model, so the "Error
  processing CSV file" branch is not modelled.
- JSON: `JSON.stringify`/`JSON.parse` in `localStorage` are not modelled. A key
  holds typed values. A key that holds something else reads as an empty list,
  as an absent key does. Storage quota errors are not modelled, including
  `GradeManagement`'s "Error saving grades" branch.
- The shared `grades` key: the React grade screen and the legacy page both
  use the key `grades` with different record shapes. In the model each reads
  only its own shape. A mixed store is not modelled.
- Fresh ids: `crypto.randomUUID()` and `Date.now() + Math.random()` are
  parameters. Their uniqueness is not assumed anywhere.
- Time zones: `getWeek` reads the local calendar day, while `new Date("YYYY-MM-DD")`
  and `toISOString` work in UTC. The model takes the local zone to be UTC.
  The opening form's date and week therefore agree here. Away from UTC they
  can name different days.
- AddAssignment.OnDateChange: covers only a picked day. Clearing the input
  gives an invalid `Date` and a `NaN` week in the source; that is not modelled.
- AddAssignment.OnDateChange: stores the corrected ISO week, as the rest of
  the model does. For years 1..100 the source's `getWeek` gives another number
  (a negative one for 0100-01-01). That handler is modelled as
  `OnDateChangeAsWritten`; see Findings.
- AddAssignment.InitialForm: is the opening state the form evidently
  intends. In the source the form never opens, because `getWeek` is called
  before it is installed (`MountAsWritten`; see Findings).
- AddAssignment.MountAsWritten: reports only that the render fails. What
  React then does with the thrown error, which with no error boundary
  is to unmount the whole application, is not modelled.
- AddAssignment.InitialForm: requires a year of at most 9999, because
  `toISOString` writes a six-digit signed year beyond that. The JavaScript
  `Date` range limit of ±100,000,000 days is not modelled either.
- Text: `trim`, `toLowerCase` and `toUpperCase` are modelled on ASCII only.
  Unicode white space and case mapping are not modelled.
- LegacyGrades.ParseInt: its own contract gives only a necessary condition
  for a result: the text holds a hexadecimal digit somewhere. It does not say
  where the digits must sit or which number is read. That is stated by
  `ParseIntText`, `ParseIntExamples` and `DigitRunToEnd` rather than in one
  closed formula.
- Calendar.GetWeekAsWritten: has no contract of its own. What it computes is
  stated by `AsWrittenAgreesOutsideTwoDigitYears` and
  `AsWrittenYear100Counterexample`.
- The student entry mode chooser in `StudentManagement.tsx` (lines 9 and
  34-88) only picks which form shows. It is not modelled.
- The "add grades first" notices of the upload, student-form and
  student-list screens are not modelled. The assignment screen's one is
  (`AssignmentManagement.Render`).
- IndividualStudentForm.Submit: the browser's constraint validation of the
  `type="email"` field is not modelled. A non-empty value that is not an
  email address (for example "abc") makes the browser block the submit
  before `handleSubmit` runs. The model lets such text through to the new
  student. The field's value sanitization is modelled (`EnterEmail`).
- The success message naming the grade (`IndividualStudentForm.tsx` lines
  122-124 and 137) is not modelled.
- The modal that edits a student is not part of this model. Only its effect,
  `handleUpdateStudent`, is modelled.
- `formatDate`'s `toLocaleDateString` display is not modelled.
- The legacy page's welcome, tab and card-rendering code (`script.js` lines
  1-89, 97-123, 188-190) is DOM plumbing and is not modelled.
- Each component reads its lists from storage once, when it mounts. The
  model passes the lists a component read as parameters. It does not model
  React's scheduling of effects beyond "the effect runs after each change".

## Findings

| source | as written | input that shows it | evidently intended | confidence | as-written member | corrected member |
|---|---|---|---|---|---|---|
| src/components/AddAssignment.tsx:36-39 | `Date.UTC` reads a year of 0..99 as 1900 plus that year. This happens both when the date is rebuilt and when January 1 of its Thursday's year is built. | The date 0100-01-01, a Friday. Its Thursday is 0099-12-31, so the week is measured from 1999-01-01 and comes out as a large negative number. | The ISO 8601 week of the date as entered, which is week 53 of 99. | not executed; high (the two-digit rule of `Date.UTC` is part of ECMAScript) | Calendar.AsWrittenYear100Counterexample | Calendar.IsoWeekMatchesReference |
| src/components/StudentManagement.tsx:84 | The bulk uploader is mounted without a callback. It keeps its own copy of the students read from storage and writes that copy back. The student screen's list is never told about the upload, so its next add, delete or edit stores its stale list over the import. | One grade and one student of that grade stored. Choose bulk upload, select the grade, import the two-student example file (storage now holds three students), then delete the stored student on the student screen: storage ends with no students. | Imported students join the student screen's list and stay stored. | not executed; high | StudentManagement.LostUpdateExample | StudentManagement.ImportSurvivesDelete |
| src/components/AddAssignment.tsx:22 | The state initialiser calls `new Date().getWeek()`. `Date.prototype.getWeek` is assigned only at line 35, later in the same render, and nothing else installs it. The call throws a `TypeError` before line 35 runs, so no later render finds it installed either. | With at least one grade stored, open the assignment screen and choose any kind: the form's first render throws. | The form opens with today's date and its ISO week, with `getWeek` installed before first use. | not executed; medium (assumes no code outside these files installs `getWeek`) | AddAssignment.FormNeverOpensAsWritten | AddAssignment.InitialForm |

=== FILE: add_assignment.dfy ===
/** The form that records a piece of missing work: grade, name, free-text
    number, due date with its ISO week, and the students who did not hand it
    in. The kind comes from the screen around it. */
module AddAssignment {
  import opened Wrappers
  import opened Records
  import opened Calendar
  import Text
  import DateText
  import StudentSelector

  /** The form's fields; `date` is the date input's `YYYY-MM-DD` text. */
  datatype AssignmentForm = AssignmentForm(
    gradeId: string,
    name: string,
    number: string,
    date: string,
    weekNumber: int,
    studentIds: seq<string>)

  /** A date the date input can hold: a real day of year 1 or later. */
  predicate InputDate(d: Date) {
    ValidDate(d) && d.year >= 1
  }

  /** The stored week number is the ISO week of the stored date. */
  predicate WeekMatchesDate(f: AssignmentForm) {
    match DateText.Parse(f.date)
    case None => false
    case Some(d) => f.weekNumber == IsoWeek(d)
  }

  /** The form when it opens on day `today`: nothing chosen, today's date
      and week. `toISOString` writes a plain four-digit year only up to
      9999. */
  function InitialForm(today: Date): (f: AssignmentForm)
    requires InputDate(today) && today.year <= 9999
    ensures f.gradeId == "" && f.name == "" && f.number == "" && f.studentIds == []
    ensures DateText.Parse(f.date) == Some(today)
    ensures WeekMatchesDate(f)
  {
    DateText.FormatParse(today);
    AssignmentForm("", "", "", DateText.Format(today), IsoWeek(today), [])
  }

  datatype MountError = GetWeekMissing

  /** The form's first render as the source writes it, given whether
      `Date.prototype.getWeek` is installed when it starts. The state
      initialiser calls `getWeek` on today's date before the component body
      installs it, so without it the render throws, the install is never
      reached, and it is still missing afterwards. With it, the week is
      `getWeek` as written. The second component is whether `getWeek` is
      installed after the render. */
  function MountAsWritten(today: Date, installed: bool): (r: (Result<AssignmentForm, MountError>, bool))
    requires InputDate(today) && today.year <= 9999
    ensures !installed <==> r.0 == Failure(GetWeekMissing)
    ensures r.1 == installed
    ensures r.0.Success? ==>
      && r.0.value.gradeId == "" && r.0.value.name == "" && r.0.value.number == "" && r.0.value.studentIds == []
      && DateText.Parse(r.0.value.date) == Some(today)
  {
    if !installed then (Failure(GetWeekMissing), false)
    else
      DateText.FormatParse(today);
      (Success(AssignmentForm("", "", "", DateText.Format(today), GetWeekAsWritten(today), [])), true)
  }

  /** Nothing outside the component installs `getWeek`, so the first render
      fails and leaves it missing: every later attempt fails the same way
      and the form never opens. */
  lemma FormNeverOpensAsWritten(today: Date, later: Date)
    requires InputDate(today) && today.year <= 9999
    requires InputDate(later) && later.year <= 9999
    ensures MountAsWritten(today, false).0 == Failure(GetWeekMissing)
    ensures MountAsWritten(later, MountAsWritten(today, false).1).0 == Failure(GetWeekMissing)
  {
  }

  /** Were `getWeek` installed before the first render, the form would open
      as `InitialForm` for every year from 101 on. */
  lemma InstalledMountIsInitialForm(today: Date)
    requires InputDate(today) && today.year <= 9999 && today.year >= 101
    ensures MountAsWritten(today, true).0 == Success(InitialForm(today))
  {
    AsWrittenAgreesOutsideTwoDigitYears(today);
  }

  /** The date input changed to day `d`: its text and its week are stored
      together. */
  function OnDateChange(f: AssignmentForm, d: Date): (r: AssignmentForm)
    requires InputDate(d)
    ensures DateText.Parse(r.date) == Some(d)
    ensures 1 <= r.weekNumber <= 53 && WeekMatchesDate(r)
    ensures r.gradeId == f.gradeId && r.name == f.name && r.number == f.number && r.studentIds == f.studentIds
  {
    DateText.FormatParse(d);
    f.(date := DateText.Format(d), weekNumber := IsoWeek(d))
  }

  /** The date handler as the source writes it, storing `getWeek` as
      written. From year 101 on it is `OnDateChange`; in the two-digit
      years the stored week can be wrong. */
  function OnDateChangeAsWritten(f: AssignmentForm, d: Date): (r: AssignmentForm)
    requires InputDate(d)
    ensures DateText.Parse(r.date) == Some(d)
    ensures r.gradeId == f.gradeId && r.name == f.name && r.number == f.number && r.studentIds == f.studentIds
    ensures d.year >= 101 ==> r == OnDateChange(f, d) && WeekMatchesDate(r)
  {
    DateText.FormatParse(d);
    AsWrittenFromYear101(d);
    f.(date := DateText.Format(d), weekNumber := GetWeekAsWritten(d))
  }

  /** From year 101 on `getWeek` as written is the ISO week. */
  lemma AsWrittenFromYear101(d: Date)
    requires InputDate(d)
    ensures d.year >= 101 ==> GetWeekAsWritten(d) == IsoWeek(d)
  {
    if d.year >= 101 {
      AsWrittenAgreesOutsideTwoDigitYears(d);
    }
  }

  /** Picking 0100-01-01 stores a negative week that is not the date's ISO
      week 53. */
  lemma DateChangeYear100AsWritten(f: AssignmentForm)
    ensures InputDate(Date(100, 1, 1))
    ensures OnDateChangeAsWritten(f, Date(100, 1, 1)).weekNumber < 0
    ensures !WeekMatchesDate(OnDateChangeAsWritten(f, Date(100, 1, 1)))
  {
    AsWrittenYear100Counterexample();
  }

  /** The other inputs change their own field only; the selection is not
      cleared when the grade changes. */
  function OnGradeChange(f: AssignmentForm, gradeId: string): (r: AssignmentForm)
    ensures r.gradeId == gradeId && r.studentIds == f.studentIds
    ensures r.name == f.name && r.number == f.number && r.date == f.date && r.weekNumber == f.weekNumber
    ensures WeekMatchesDate(f) ==> WeekMatchesDate(r)
  {
    f.(gradeId := gradeId)
  }

  function OnNameChange(f: AssignmentForm, name: string): (r: AssignmentForm)
    ensures r.name == name && r.gradeId == f.gradeId && r.studentIds == f.studentIds
    ensures r.number == f.number && r.date == f.date && r.weekNumber == f.weekNumber
    ensures WeekMatchesDate(f) ==> WeekMatchesDate(r)
  {
    f.(name := name)
  }

  function OnNumberChange(f: AssignmentForm, number: string): (r: AssignmentForm)
    ensures r.number == number && r.gradeId == f.gradeId && r.name == f.name
    ensures r.studentIds == f.studentIds && r.date == f.date && r.weekNumber == f.weekNumber
    ensures WeekMatchesDate(f) ==> WeekMatchesDate(r)
  {
    f.(number := number)
  }

  /** A student was toggled in the picker. */
  function OnToggleStudent(f: AssignmentForm, id: string): (r: AssignmentForm)
    ensures r.studentIds == StudentSelector.Toggle(f.studentIds, id)
    ensures r.gradeId == f.gradeId && r.name == f.name && r.date == f.date
    ensures r.number == f.number && r.weekNumber == f.weekNumber
    ensures WeekMatchesDate(f) ==> WeekMatchesDate(r)
  {
    f.(studentIds := StudentSelector.Toggle(f.studentIds, id))
  }

  datatype AssignmentError = MissingGrade | MissingName | MissingStudents

  /** `handleSubmit`, with the fresh id passed in: the three checks in source
      order, then a record that takes the kind from the screen and every
      other field from the form as it is (the name untrimmed). */
  function Submit(f: AssignmentForm, selectedType: AssignmentType, id: string): (r: Result<Assignment, AssignmentError>)
    ensures f.gradeId == "" ==> r == Failure(MissingGrade)
    ensures f.gradeId != "" && Text.IsBlank(f.name) ==> r == Failure(MissingName)
    ensures f.gradeId != "" && !Text.IsBlank(f.name) && f.studentIds == [] ==> r == Failure(MissingStudents)
    ensures r.Success? <==> f.gradeId != "" && !Text.IsBlank(f.name) && f.studentIds != []
    ensures r.Success? ==>
      && r.value.id == id && r.value.kind == selectedType
      && r.value.name == f.name && r.value.number == f.number
      && r.value.date == f.date && r.value.weekNumber == f.weekNumber
      && r.value.gradeId == f.gradeId && r.value.studentIds == f.studentIds
  {
    if f.gradeId == "" then Failure(MissingGrade)
    else if Text.Trim(f.name) == "" then Failure(MissingName)
    else if |f.studentIds| == 0 then Failure(MissingStudents)
    else Success(Assignment(id, selectedType, f.name, f.number, f.date, f.weekNumber, f.gradeId, f.studentIds))
  }

  /** A record made from a form whose week was kept with its date carries
      a week in 1..53 that is the ISO week of its own date. */
  lemma SubmittedWeekMatchesDate(f: AssignmentForm, selectedType: AssignmentType, id: string)
    requires WeekMatchesDate(f)
    requires Submit(f, selectedType, id).Success?
    ensures var a := Submit(f, selectedType, id).value;
      && DateText.Parse(a.date).Some?
      && a.weekNumber == IsoWeek(DateText.Parse(a.date).value)
      && 1 <= a.weekNumber <= 53
  {
  }

  /** Two due dates in the same Monday-to-Sunday week are recorded with the
      same week number, and two dates of one ISO year with the same number
      lie in the same week. */
  lemma SameWeekIffSameNumber(f: AssignmentForm, d1: Date, d2: Date)
    requires InputDate(d1) && InputDate(d2)
    ensures Monday(Serial(d1)) == Monday(Serial(d2)) ==>
      OnDateChange(f, d1).weekNumber == OnDateChange(f, d2).weekNumber
    ensures IsoYear(d1) == IsoYear(d2) && OnDateChange(f, d1).weekNumber == OnDateChange(f, d2).weekNumber ==>
      Monday(Serial(d1)) == Monday(Serial(d2))
  {
    if Monday(Serial(d1)) == Monday(Serial(d2)) {
      SameWeekSameNumber(d1, d2);
    }
    if IsoYear(d1) == IsoYear(d2) && IsoWeek(d1) == IsoWeek(d2) {
      SameNumberSameWeek(d1, d2);
    }
  }
}

=== FILE: app.dfy ===
/** The application shell: it reads the teacher profile from storage, shows
    only the setup form until there is one, and otherwise shows the screen
    of the chosen tab. */
module App {
  import opened Wrappers
  import opened Records
  import Store
  import WelcomeForm

  /** What the shell renders. */
  datatype Screen = Setup | GradeEntry | StudentEntry | Assignments | Blank

  datatype Shell = Shell(profile: Option<TeacherInfo>, activeTab: string, store: Store.Store)

  /** The profile effect: it writes only a present profile. */
  function PersistProfile(profile: Option<TeacherInfo>, store: Store.Store): (r: Store.Store)
    ensures profile.None? ==> r == store
    ensures profile.Some? ==> Store.LoadProfile(r) == profile && Store.OthersUnchanged(store, r, Store.ProfileKey)
  {
    match profile
    case None => store
    case Some(info) => Store.SaveProfile(store, info)
  }

  /** The shell starts: the stored profile (none when absent) and the
      `grades` tab. */
  function Start(store: Store.Store): (s: Shell)
    ensures s.profile == Store.LoadProfile(store) && s.activeTab == "grades"
    ensures Store.LoadProfile(s.store) == Store.LoadProfile(store)
    ensures Store.OthersUnchanged(store, s.store, Store.ProfileKey)
  {
    var profile := Store.LoadProfile(store);
    Shell(profile, "grades", PersistProfile(profile, store))
  }

  /** What is on screen. */
  function Render(s: Shell): (v: Screen)
    ensures s.profile.None? <==> v == Setup
    ensures s.profile.Some? && s.activeTab !in {"grades", "students", "assignments"} ==> v == Blank
    ensures s.profile.Some? && s.activeTab == "grades" ==> v == GradeEntry
    ensures s.profile.Some? && s.activeTab == "students" ==> v == StudentEntry
    ensures s.profile.Some? && s.activeTab == "assignments" ==> v == Assignments
  {
    if s.profile.None? then Setup
    else if s.activeTab == "grades" then GradeEntry
    else if s.activeTab == "students" then StudentEntry
    else if s.activeTab == "assignments" then Assignments
    else Blank
  }

  /** `handleWelcomeComplete`: the profile is set and the effect stores it. */
  function HandleWelcomeComplete(s: Shell, c: WelcomeForm.Completion): (r: Shell)
    ensures r.profile == Some(TeacherInfo(c.name, c.logo, c.appName))
    ensures r.activeTab == s.activeTab
    ensures Store.LoadProfile(r.store) == r.profile
    ensures Store.OthersUnchanged(s.store, r.store, Store.ProfileKey)
  {
    var profile := Some(TeacherInfo(c.name, c.logo, c.appName));
    Shell(profile, s.activeTab, PersistProfile(profile, s.store))
  }

  /** A tab button was pressed. */
  function SelectTab(s: Shell, tab: string): (r: Shell)
    ensures r.activeTab == tab && r.profile == s.profile && r.store == s.store
  {
    s.(activeTab := tab)
  }

  /** First run: with nothing stored only the setup form shows; a completed
      setup stores the profile and opens grade entry, and the next start
      skips setup. */
  lemma FirstRun(store: Store.Store, w: WelcomeForm.Welcome)
    requires Store.LoadProfile(store).None?
    requires WelcomeForm.Submit(w).Success?
    ensures Render(Start(store)) == Setup
    ensures var s := HandleWelcomeComplete(Start(store), WelcomeForm.Submit(w).value);
      && Render(s) == GradeEntry
      && s.profile.value.name == w.name && s.profile.value.schoolLogo == w.logo && s.profile.value.appName == w.appName
      && Render(Start(s.store)) == GradeEntry
  {
  }

  /** Without a profile no tab choice gets past the setup form. */
  lemma SetupGate(s: Shell, tab: string)
    requires s.profile.None?
    ensures Render(SelectTab(s, tab)) == Setup
  {
  }
}

=== FILE: assignment_list.dfy ===
/** The assignment screen's list: one collapsible group per stored grade that
    has assignments, in grade order, each listing that grade's assignments
    in list order with the number of missing students. Groups start closed. */
module AssignmentList {
  import opened Records
  import opened Seqs
  import opened ViewState
  import StudentRegistry

  function ForGrade(gradeId: string): Assignment -> bool {
    (a: Assignment) => a.gradeId == gradeId
  }

  /** `getGradeAssignments`. */
  function GradeAssignments(assignments: seq<Assignment>, gradeId: string): (r: seq<Assignment>)
    ensures forall i :: 0 <= i < |r| ==> r[i] in assignments && r[i].gradeId == gradeId
    ensures forall i :: 0 <= i < |assignments| && assignments[i].gradeId == gradeId ==> assignments[i] in r
    ensures |r| == CountIf(ForGrade(gradeId), assignments)
    ensures IsSubsequence(r, assignments)
  {
    FilterIsSubsequence(ForGrade(gradeId), assignments);
    Filter(ForGrade(gradeId), assignments)
  }

  /** A grade's group as shown. */
  datatype Group = Group(grade: Grade, assignments: seq<Assignment>, expanded: bool)

  /** What the list shows: a message when nothing is tracked, otherwise the
      groups. */
  datatype View = NothingTracked | Grouped(groups: seq<Group>)

  /** A group has something in it. */
  function NonEmpty(): Group -> bool {
    (g: Group) => g.assignments != []
  }

  /** Every grade's would-be group, in grade order. */
  function AllGroups(grades: seq<Grade>, assignments: seq<Assignment>, flags: Flags): (r: seq<Group>)
    ensures |r| == |grades|
    ensures forall i :: 0 <= i < |r| ==>
      r[i] == Group(grades[i], GradeAssignments(assignments, grades[i].id), IsExpanded(flags, grades[i].id))
  {
    seq(|grades|, i requires 0 <= i < |grades| =>
      Group(grades[i], GradeAssignments(assignments, grades[i].id), IsExpanded(flags, grades[i].id)))
  }

  /** The groups shown: those of the grades that have assignments, in grade
      order. */
  function Groups(grades: seq<Grade>, assignments: seq<Assignment>, flags: Flags): (r: seq<Group>)
    ensures |r| <= |grades|
    ensures |r| == CountIf(NonEmpty(), AllGroups(grades, assignments, flags))
    ensures IsSubsequence(r, AllGroups(grades, assignments, flags))
    ensures forall i :: 0 <= i < |r| ==>
      && r[i].grade in grades
      && r[i].assignments == GradeAssignments(assignments, r[i].grade.id)
      && r[i].assignments != []
      && (r[i].expanded <==> IsExpanded(flags, r[i].grade.id))
    ensures forall j :: 0 <= j < |grades| && GradeAssignments(assignments, grades[j].id) != [] ==>
      exists i :: 0 <= i < |r| && r[i].grade == grades[j]
  {
    var all := AllGroups(grades, assignments, flags);
    FilterIsSubsequence(NonEmpty(), all);
    ShownGroupFacts(grades, assignments, flags);
    Filter(NonEmpty(), all)
  }

  /** Each kept group is some grade's would-be group, and every would-be
      group with assignments is kept. */
  lemma ShownGroupFacts(grades: seq<Grade>, assignments: seq<Assignment>, flags: Flags)
    ensures var all := AllGroups(grades, assignments, flags);
      var r := Filter(NonEmpty(), all);
      && (forall i :: 0 <= i < |r| ==>
        && r[i].grade in grades
        && r[i].assignments == GradeAssignments(assignments, r[i].grade.id)
        && r[i].assignments != []
        && (r[i].expanded <==> IsExpanded(flags, r[i].grade.id)))
      && (forall j :: 0 <= j < |grades| && GradeAssignments(assignments, grades[j].id) != [] ==>
        exists i :: 0 <= i < |r| && r[i].grade == grades[j])
  {
    var all := AllGroups(grades, assignments, flags);
    var r := Filter(NonEmpty(), all);
    assert forall i :: 0 <= i < |r| ==> exists j :: 0 <= j < |all| && r[i] == all[j];
    assert forall j :: 0 <= j < |grades| && NonEmpty()(all[j]) ==> all[j] in r;
  }

  /** The list as shown. */
  function Show(grades: seq<Grade>, assignments: seq<Assignment>, flags: Flags): (v: View)
    ensures assignments == [] <==> v == NothingTracked
  {
    if |assignments| == 0 then NothingTracked else Grouped(Groups(grades, assignments, flags))
  }

  /** An assignment whose grade id names no stored grade is in no group,
      and showing the list is not an error. */
  lemma DanglingAssignmentNotShown(grades: seq<Grade>, assignments: seq<Assignment>, flags: Flags, a: Assignment)
    requires forall j :: 0 <= j < |grades| ==> grades[j].id != a.gradeId
    ensures forall i :: 0 <= i < |Groups(grades, assignments, flags)| ==>
      a !in Groups(grades, assignments, flags)[i].assignments
  {
  }

  /** The id is one of the assignment's missing students. */
  function IdListed(ids: seq<string>): Student -> bool {
    (st: Student) => st.id in ids
  }

  /** `students.filter(s => assignment.studentIds.includes(s.id))`: the
      stored students the assignment lists. */
  function MissingStudents(students: seq<Student>, a: Assignment): (r: seq<Student>)
    ensures forall i :: 0 <= i < |r| ==> r[i] in students && r[i].id in a.studentIds
    ensures forall i :: 0 <= i < |students| && students[i].id in a.studentIds ==> students[i] in r
    ensures |r| == CountIf(IdListed(a.studentIds), students)
    ensures IsSubsequence(r, students)
  {
    FilterIsSubsequence(IdListed(a.studentIds), students);
    Filter(IdListed(a.studentIds), students)
  }

  /** The "students missing" count. */
  function MissingCount(students: seq<Student>, a: Assignment): (n: nat)
    ensures n == CountIf(IdListed(a.studentIds), students)
    ensures n <= |students|
  {
    |MissingStudents(students, a)|
  }

  /** Once a student is deleted, the id it had no longer counts, though the
      assignment still lists it; the count falls by the number of records
      deleted that the assignment listed. */
  lemma DeletedStudentNotCounted(students: seq<Student>, a: Assignment, id: string)
    requires id in a.studentIds
    ensures forall i :: 0 <= i < |MissingStudents(StudentRegistry.Delete(students, id), a)| ==>
      MissingStudents(StudentRegistry.Delete(students, id), a)[i].id != id
    ensures MissingCount(StudentRegistry.Delete(students, id), a) ==
      MissingCount(students, a) - CountIf(HasId(id), students)
  {
    CountAfterDelete(students, a.studentIds, id);
  }

  function HasId(id: string): Student -> bool {
    (st: Student) => st.id == id
  }

  lemma {:induction false} CountAfterDelete(students: seq<Student>, ids: seq<string>, id: string)
    requires id in ids
    ensures CountIf(IdListed(ids), StudentRegistry.Delete(students, id)) ==
      CountIf(IdListed(ids), students) - CountIf(HasId(id), students)
    decreases |students|
  {
    if |students| > 0 {
      CountAfterDelete(students[1..], ids, id);
      var del := StudentRegistry.Delete(students, id);
      if students[0].id != id {
        assert del == [students[0]] + StudentRegistry.Delete(students[1..], id);
        assert ([students[0]] + StudentRegistry.Delete(students[1..], id))[1..] == StudentRegistry.Delete(students[1..], id);
      } else {
        assert del == StudentRegistry.Delete(students[1..], id);
      }
    }
  }

  /** Groups start closed; the first toggle of a grade opens its group and
      no other. */
  lemma FirstToggleOpensOnlyThatGroup(grades: seq<Grade>, assignments: seq<Assignment>, key: string)
    ensures forall i :: 0 <= i < |Groups(grades, assignments, map[])| ==> !Groups(grades, assignments, map[])[i].expanded
    ensures var r := Groups(grades, assignments, ToggleFlag(map[], key));
      forall i :: 0 <= i < |r| ==> (r[i].expanded <==> r[i].grade.id == key)
  {
  }
}

=== FILE: assignment_management.dfy ===
/** The assignment screen: the assignment list it keeps in memory, loaded
    from the `assignments` entry and written back after every change, the
    kind chosen for the next record, and whether the entry form is open. */
module AssignmentManagement {
  import opened Wrappers
  import opened Records
  import opened Seqs
  import Store
  import AddAssignment

  datatype Screen = Screen(
    assignments: seq<Assignment>,
    selectedType: AssignmentType,
    isAddingNew: bool,
    store: Store.Store)

  /** What the screen shows. */
  datatype View = NoGrades | Adding(kind: AssignmentType) | Overview

  predicate Persisted(s: Screen) {
    Store.LoadAssignments(s.store) == s.assignments
  }

  /** The screen opens: the stored list, homework chosen, the form closed. */
  function Mount(store: Store.Store): (s: Screen)
    ensures s.assignments == Store.LoadAssignments(store)
    ensures s.selectedType == Homework && !s.isAddingNew
    ensures Persisted(s) && Store.OthersUnchanged(store, s.store, Store.AssignmentsKey)
  {
    var assignments := Store.LoadAssignments(store);
    Screen(assignments, Homework, false, Store.SaveAssignments(store, assignments))
  }

  /** The view: without grades nothing can be tracked; otherwise the form
      while adding, else the kind buttons and the list. */
  function Render(s: Screen, grades: seq<Grade>): (v: View)
    ensures grades == [] <==> v == NoGrades
    ensures grades != [] && s.isAddingNew ==> v == Adding(s.selectedType)
    ensures v == Overview <==> grades != [] && !s.isAddingNew
  {
    if |grades| == 0 then NoGrades
    else if s.isAddingNew then Adding(s.selectedType)
    else Overview
  }

  /** `handleAddAssignment`: appended at the end, form closed. */
  function HandleAdd(s: Screen, a: Assignment): (r: Screen)
    ensures |r.assignments| == |s.assignments| + 1
    ensures r.assignments[..|s.assignments|] == s.assignments && r.assignments[|s.assignments|] == a
    ensures !r.isAddingNew && r.selectedType == s.selectedType
    ensures Persisted(r) && Store.OthersUnchanged(s.store, r.store, Store.AssignmentsKey)
  {
    var assignments := s.assignments + [a];
    Screen(assignments, s.selectedType, false, Store.SaveAssignments(s.store, assignments))
  }

  function NotAssignment(id: string): Assignment -> bool {
    (a: Assignment) => a.id != id
  }

  /** `handleDeleteAssignment`: every record with that id goes. */
  function HandleDelete(s: Screen, id: string): (r: Screen)
    ensures forall i :: 0 <= i < |r.assignments| ==> r.assignments[i] in s.assignments && r.assignments[i].id != id
    ensures forall i :: 0 <= i < |s.assignments| && s.assignments[i].id != id ==> s.assignments[i] in r.assignments
    ensures |r.assignments| == CountIf(NotAssignment(id), s.assignments)
    ensures IsSubsequence(r.assignments, s.assignments)
    ensures r.isAddingNew == s.isAddingNew && r.selectedType == s.selectedType
    ensures Persisted(r) && Store.OthersUnchanged(s.store, r.store, Store.AssignmentsKey)
  {
    FilterIsSubsequence(NotAssignment(id), s.assignments);
    var assignments := Filter(NotAssignment(id), s.assignments);
    Screen(assignments, s.selectedType, s.isAddingNew, Store.SaveAssignments(s.store, assignments))
  }

  /** Deleting an id no record has leaves the list as it was, and a second
      delete of the same id does nothing more. */
  lemma DeleteAbsentAndIdempotent(s: Screen, id: string)
    ensures (forall i :: 0 <= i < |s.assignments| ==> s.assignments[i].id != id) ==>
      HandleDelete(s, id).assignments == s.assignments
    ensures HandleDelete(HandleDelete(s, id), id).assignments == HandleDelete(s, id).assignments
  {
    if forall i :: 0 <= i < |s.assignments| ==> s.assignments[i].id != id {
      FilterKeepsAll(NotAssignment(id), s.assignments);
    }
    FilterIdempotent(NotAssignment(id), s.assignments);
  }

  /** `handleTypeSelect`: the kind is chosen and the form opens. */
  function SelectType(s: Screen, t: AssignmentType): (r: Screen)
    ensures r.selectedType == t && r.isAddingNew
    ensures r.assignments == s.assignments && r.store == s.store
  {
    s.(selectedType := t, isAddingNew := true)
  }

  /** Cancel closes the form and changes nothing else. */
  function Cancel(s: Screen): (r: Screen)
    ensures !r.isAddingNew && r.selectedType == s.selectedType
    ensures r.assignments == s.assignments && r.store == s.store
  {
    s.(isAddingNew := false)
  }

  /** Submitting the open form: a refused record changes nothing, an
      accepted one is added with the chosen kind. */
  function SubmitForm(s: Screen, f: AddAssignment.AssignmentForm, id: string): (r: Screen)
    ensures AddAssignment.Submit(f, s.selectedType, id).Failure? ==> r == s
    ensures AddAssignment.Submit(f, s.selectedType, id).Success? ==>
      && |r.assignments| == |s.assignments| + 1
      && r.assignments == s.assignments + [AddAssignment.Submit(f, s.selectedType, id).value]
      && r.assignments[|s.assignments|].kind == s.selectedType
      && !r.isAddingNew && Persisted(r)
      && Store.OthersUnchanged(s.store, r.store, Store.AssignmentsKey)
  {
    match AddAssignment.Submit(f, s.selectedType, id)
    case Failure(_) => s
    case Success(a) => HandleAdd(s, a)
  }

  /** Choosing a kind and cancelling leaves the list and the storage
      untouched. */
  lemma SelectThenCancel(s: Screen, t: AssignmentType)
    ensures Cancel(SelectType(s, t)).assignments == s.assignments
    ensures Cancel(SelectType(s, t)).store == s.store
    ensures Render(Cancel(SelectType(s, t)), [Grade("g", "1", None)]) == Overview
  {
  }
}

=== FILE: bulk_upload.dfy ===
/** Bulk student import from comma-separated text: one header line, then one
    line per student holding the name and, optionally, the email. There is
    no quoting, so a comma always ends a field. */
module BulkStudentUpload {
  import opened Wrappers
  import opened Records
  import opened Seqs
  import Text
  import Store

  /** The chosen file: its MIME type and its already-read contents. */
  datatype CsvFile = CsvFile(mimeType: string, text: string)

  /** Why an upload added nothing. `NoFile` is silent in the source; the
      other two show a message. */
  datatype UploadError = NoFile | NoGradeSelected | NotCsv

  /** `text.split('\n').map(row => row.split(','))`. */
  function Rows(text: string): (rows: seq<seq<string>>)
    ensures |rows| == |Text.Split(text, '\n')|
    ensures forall i :: 0 <= i < |rows| ==> |rows[i]| >= 1
  {
    var lines := Text.Split(text, '\n');
    seq(|lines|, i requires 0 <= i < |lines| => Text.Split(lines[i], ','))
  }

  /** `row.length >= 1 && row[0].trim()`: the row names somebody. */
  predicate KeepRow(row: seq<string>) {
    |row| >= 1 && !Text.IsBlank(row[0])
  }

  function IsKept(): seq<string> -> bool {
    row => KeepRow(row)
  }

  /** The rows after the header that name somebody, in file order. */
  function KeptRows(text: string): (kept: seq<seq<string>>)
    ensures forall k :: 0 <= k < |kept| ==> KeepRow(kept[k])
  {
    Filter(IsKept(), Rows(text)[1..])
  }

  /** `row[1]?.trim() || undefined`: the trimmed second field, absent when
      there is no second field or it is blank. */
  function EmailField(row: seq<string>): (e: Option<string>)
    ensures e.Some? <==> |row| >= 2 && !Text.IsBlank(row[1])
    ensures e.Some? ==> e.value != "" && Text.Trim(e.value) == e.value
  {
    if |row| >= 2 && Text.Trim(row[1]) != "" then
      Text.TrimIdempotent(row[1]);
      Some(Text.Trim(row[1]))
    else None
  }

  /** The student built from a kept row: its name is the first field
      trimmed, which is never empty. */
  function RowStudent(row: seq<string>, id: string, gradeId: string): (st: Student)
    requires KeepRow(row)
    ensures st.name != "" && Text.Trim(st.name) == st.name
  {
    Text.TrimIdempotent(row[0]);
    Student(id, Text.Trim(row[0]), gradeId, EmailField(row), None)
  }

  /** The new students of an upload: one per kept row, in row order, the
      k-th of them taking the fresh id `ids(k)`. */
  function ParseStudents(text: string, gradeId: string, ids: nat -> string): (r: seq<Student>)
    ensures var kept := KeptRows(text);
      && |r| == |kept|
      && forall k :: 0 <= k < |r| ==>
        && r[k].id == ids(k)
        && r[k].gradeId == gradeId
        && r[k].name == Text.Trim(kept[k][0])
        && r[k].email == EmailField(kept[k])
        && r[k].picture.None?
    ensures forall k :: 0 <= k < |r| ==> r[k].name != "" && Text.Trim(r[k].name) == r[k].name
  {
    var kept := KeptRows(text);
    seq(|kept|, k requires 0 <= k < |kept| => RowStudent(kept[k], ids(k), gradeId))
  }

  /** The header line is discarded whatever it says. */
  lemma HeaderIgnored(h1: string, h2: string, body: string, gradeId: string, ids: nat -> string)
    requires '\n' !in h1 && '\n' !in h2
    ensures ParseStudents(h1 + "\n" + body, gradeId, ids) == ParseStudents(h2 + "\n" + body, gradeId, ids)
  {
    SplitAfterLine(h1, body);
    SplitAfterLine(h2, body);
    assert Rows(h1 + "\n" + body)[1..] == Rows(h2 + "\n" + body)[1..];
  }

  /** Splitting `line + "\n" + rest` on newlines gives the line and then the
      lines of the rest. */
  lemma SplitAfterLine(line: string, rest: string)
    requires '\n' !in line
    ensures Text.Split(line + "\n" + rest, '\n') == [line] + Text.Split(rest, '\n')
  {
    var s := line + "\n" + rest;
    Text.IndexOfFree(line, '\n', "\n" + rest);
    assert s == line + ("\n" + rest);
    assert s[..|line|] == line;
    assert s[|line| + 1..] == rest;
  }

  /** A row whose first field is blank adds no student; any other row adds
      exactly one, built from that row, after the students of earlier
      rows. */
  lemma RowContribution(rows: seq<seq<string>>, row: seq<string>)
    ensures KeepRow(row) ==> Filter(IsKept(), rows + [row]) == Filter(IsKept(), rows) + [row]
    ensures !KeepRow(row) ==> Filter(IsKept(), rows + [row]) == Filter(IsKept(), rows)
  {
    FilterAppend(IsKept(), rows, [row]);
    assert [row][1..] == [];
  }

  /** `handleFileUpload`: the guards in source order, then the parsed
      students appended after the existing ones. */
  function Import(existing: seq<Student>, selectedGrade: string, file: Option<CsvFile>, ids: nat -> string)
    : (r: Result<seq<Student>, UploadError>)
    ensures file.None? ==> r == Failure(NoFile)
    ensures file.Some? && selectedGrade == "" ==> r == Failure(NoGradeSelected)
    ensures file.Some? && selectedGrade != "" && file.value.mimeType != "text/csv" ==> r == Failure(NotCsv)
    ensures r.Success? <==> file.Some? && selectedGrade != "" && file.value.mimeType == "text/csv"
    ensures r.Success? ==>
      && |r.value| == |existing| + |KeptRows(file.value.text)|
      && r.value[..|existing|] == existing
      && r.value[|existing|..] == ParseStudents(file.value.text, selectedGrade, ids)
  {
    if file.None? then Failure(NoFile)
    else if selectedGrade == "" then Failure(NoGradeSelected)
    else if file.value.mimeType != "text/csv" then Failure(NotCsv)
    else
      var added := ParseStudents(file.value.text, selectedGrade, ids);
      assert (existing + added)[|existing|..] == added;
      Success(existing + added)
  }

  /** A text without a separator splits into itself alone. */
  lemma SplitWhole(s: string, sep: char)
    requires sep !in s
    ensures Text.Split(s, sep) == [s]
  {
    Text.IndexOfFree(s, sep, []);
    assert s + [] == s;
  }

  /** Four lines without newlines, joined by newlines, split back into
      themselves. */
  lemma SplitFourLines(l0: string, l1: string, l2: string, l3: string)
    requires '\n' !in l0 && '\n' !in l1 && '\n' !in l2 && '\n' !in l3
    ensures Text.Split(l0 + "\n" + (l1 + "\n" + (l2 + "\n" + l3)), '\n') == [l0, l1, l2, l3]
  {
    SplitWhole(l3, '\n');
    SplitAfterLine(l2, l3);
    SplitAfterLine(l1, l2 + "\n" + l3);
    SplitAfterLine(l0, l1 + "\n" + (l2 + "\n" + l3));
  }

  /** A row with a blank name between two named rows is skipped. */
  lemma SkipsMiddleRow(rows: seq<seq<string>>)
    requires |rows| == 3 && KeepRow(rows[0]) && !KeepRow(rows[1]) && KeepRow(rows[2])
    ensures Filter(IsKept(), rows) == [rows[0], rows[2]]
  {
    var r1, r2, r3 := rows[0], rows[1], rows[2];
    RowContribution([r1], r2);
    RowContribution([r1, r2], r3);
    assert rows == [r1, r2] + [r3];
    assert [r1, r2] == [r1] + [r2];
    assert Filter(IsKept(), [r1]) == [r1];
  }

  /** A file with a header, a named row, a row with a blank name and another
      named row: the blank row is skipped and the other two become students
      0 and 1, in file order. */
  lemma SkipsBlankRow(h: string, n1: string, e1: string, e2: string, n3: string, e3: string,
                      gradeId: string, ids: nat -> string)
    requires '\n' !in h && '\n' !in n1 && '\n' !in e1 && '\n' !in e2 && '\n' !in n3 && '\n' !in e3
    requires ',' !in n1 && ',' !in e1 && ',' !in e2 && ',' !in n3 && ',' !in e3
    requires !Text.IsBlank(n1) && !Text.IsBlank(n3)
    ensures var r := ParseStudents(h + "\n" + ((n1 + "," + e1) + "\n" + (("," + e2) + "\n" + (n3 + "," + e3))), gradeId, ids);
      && |r| == 2
      && r[0] == Student(ids(0), Text.Trim(n1), gradeId, EmailField([n1, e1]), None)
      && r[1] == Student(ids(1), Text.Trim(n3), gradeId, EmailField([n3, e3]), None)
  {
    var l1, l2, l3 := n1 + "," + e1, "" + "," + e2, n3 + "," + e3;
    assert "," + e2 == l2;
    var text := h + "\n" + (l1 + "\n" + (l2 + "\n" + l3));
    SplitFourLines(h, l1, l2, l3);
    SplitPair(n1, e1);
    SplitPair("", e2);
    SplitPair(n3, e3);
    var rows := Rows(text)[1..];
    assert rows == [[n1, e1], ["", e2], [n3, e3]];
    SkipsMiddleRow(rows);
  }

  /** The example file of the import instructions, header line first, with
      a blank-name row added in the middle. */
  const ExampleText: string :=
    "Name,Email" + "\n" + (("John Doe" + "," + "john@x.com") + "\n" + (("," + "skip@x.com") + "\n" + ("Jane" + "," + "jane@x.com")))

  /** The example file of the import instructions with a blank-name row
      added in the middle. */
  lemma ImportExample(ids: nat -> string)
    ensures var r := ParseStudents(ExampleText, "g", ids);
      && |r| == 2
      && r[0] == Student(ids(0), "John Doe", "g", Some("john@x.com"), None)
      && r[1] == Student(ids(1), "Jane", "g", Some("jane@x.com"), None)
  {
    var h, n1, e1, e2, n3, e3 := "Name,Email", "John Doe", "john@x.com", "skip@x.com", "Jane", "jane@x.com";
    assert '\n' !in h && '\n' !in n1 && '\n' !in e1 && '\n' !in e2 && '\n' !in n3 && '\n' !in e3;
    assert ',' !in n1 && ',' !in e1 && ',' !in e2 && ',' !in n3 && ',' !in e3;
    assert !Text.IsBlank(n1) && !Text.IsBlank(n3);
    Text.TrimUnchanged(n1);
    Text.TrimUnchanged(e1);
    Text.TrimUnchanged(n3);
    Text.TrimUnchanged(e3);
    assert EmailField([n1, e1]) == Some(e1);
    assert EmailField([n3, e3]) == Some(e3);
    SkipsBlankRow(h, n1, e1, e2, n3, e3, "g", ids);
  }

  /** A line with exactly one comma splits into its two fields. */
  lemma SplitPair(a: string, b: string)
    requires ',' !in a && ',' !in b
    ensures Text.Split(a + "," + b, ',') == [a, b]
  {
    assert a + "," + b == Text.Join([a, b], ',');
    Text.SplitJoin([a, b], ',');
  }

  /** The upload component as the source writes it: it keeps its own copy of
      the student list, read from storage when it appears, and writes that
      copy back after each change. */
  datatype Uploader = Uploader(students: seq<Student>, store: Store.Store)

  /** The component appears: its list is read from storage and its effect
      writes it back at once. */
  function MountUploader(store: Store.Store): (u: Uploader)
    ensures u.students == Store.LoadStudents(store)
    ensures Store.LoadStudents(u.store) == u.students
  {
    var students := Store.LoadStudents(store);
    Uploader(students, Store.SaveStudents(store, students))
  }

  /** `handleFileUpload` on the component's own copy: a rejected upload
      changes nothing; an accepted one appends and saves. */
  function UploadAsWritten(u: Uploader, selectedGrade: string, file: Option<CsvFile>, ids: nat -> string)
    : (r: Uploader)
    ensures Import(u.students, selectedGrade, file, ids).Failure? ==> r == u
    ensures Import(u.students, selectedGrade, file, ids).Success? ==>
      && r.students == Import(u.students, selectedGrade, file, ids).value
      && Store.LoadStudents(r.store) == r.students
      && Store.OthersUnchanged(u.store, r.store, Store.StudentsKey)
  {
    match Import(u.students, selectedGrade, file, ids)
    case Failure(_) => u
    case Success(students) => Uploader(students, Store.SaveStudents(u.store, students))
  }
}

=== FILE: calendar.dfy ===
/** Proleptic Gregorian calendar arithmetic on day serials, and the ISO 8601
    week number of a date (the ISO 8601 week rule: weeks start on Monday,
    and week 1 of a year is the week holding its first Thursday).

    A day serial is the number of days since 1970-01-01, which is what the
    millisecond timestamps of a JavaScript `Date` built with `Date.UTC`
    amount to once divided by 86400000. */
module Calendar {

  /** A civil date; `month` runs 1..12 (the JavaScript month index plus
      one). */
  datatype Date = Date(year: int, month: int, day: int)

  predicate IsLeapYear(y: int) {
    y % 4 == 0 && (y % 100 != 0 || y % 400 == 0)
  }

  function YearLength(y: int): int {
    if IsLeapYear(y) then 366 else 365
  }

  function DaysInMonth(y: int, m: int): int
    requires 1 <= m <= 12
  {
    if m == 2 then (if IsLeapYear(y) then 29 else 28)
    else if m == 4 || m == 6 || m == 9 || m == 11 then 30
    else 31
  }

  predicate ValidDate(d: Date) {
    1 <= d.month <= 12 && 1 <= d.day <= DaysInMonth(d.year, d.month)
  }

  /** Number of leap years among 1..y-1, counted with floor division so that
      it also steps correctly for years before 1. */
  function LeapsBefore(y: int): int {
    (y - 1) / 4 - (y - 1) / 100 + (y - 1) / 400
  }

  /** Serial of January 1 of year `y`. */
  function YearStart(y: int): int {
    365 * (y - 1970) + LeapsBefore(y) - LeapsBefore(1970)
  }

  /** Consecutive years start exactly one year length apart. */
  lemma NextYearStart(y: int)
    ensures YearStart(y + 1) == YearStart(y) + YearLength(y)
  {
    FloorStep4(y);
    FloorStep100(y);
    FloorStep400(y);
    assert y % 400 == 0 ==> y % 100 == 0;
    assert y % 100 == 0 ==> y % 4 == 0;
  }

  /** Moving from `y - 1` to `y` raises `y / 4` exactly when 4 divides
      `y`; likewise for 100 and 400 below. */
  lemma FloorStep4(y: int)
    ensures y / 4 - (y - 1) / 4 == (if y % 4 == 0 then 1 else 0)
  {
  }

  lemma FloorStep100(y: int)
    ensures y / 100 - (y - 1) / 100 == (if y % 100 == 0 then 1 else 0)
  {
  }

  lemma FloorStep400(y: int)
    ensures y / 400 - (y - 1) / 400 == (if y % 400 == 0 then 1 else 0)
  {
  }

  /** Year starts strictly increase. */
  lemma {:induction false} YearStartMonotonic(a: int, b: int)
    requires a < b
    ensures YearStart(a) + 365 <= YearStart(b)
    decreases b - a
  {
    NextYearStart(a);
    if a + 1 < b {
      YearStartMonotonic(a + 1, b);
    }
  }

  /** The serial `s` falls within year `y`. */
  predicate InYear(s: int, y: int) {
    YearStart(y) <= s < YearStart(y + 1)
  }

  /** A day lies in at most one year. */
  lemma InYearUnique(s: int, y1: int, y2: int)
    requires InYear(s, y1) && InYear(s, y2)
    ensures y1 == y2
  {
    if y1 < y2 {
      YearStartMonotonic(y1, y2);
      NextYearStart(y1);
      if y1 + 1 < y2 {
        YearStartMonotonic(y1 + 1, y2);
      }
    } else if y2 < y1 {
      YearStartMonotonic(y2, y1);
      NextYearStart(y2);
      if y2 + 1 < y1 {
        YearStartMonotonic(y2 + 1, y1);
      }
    }
  }

  /** `getUTCFullYear` of a serial known to lie within a year of year `y`. */
  function YearNear(s: int, y: int): (r: int)
    requires YearStart(y - 1) <= s < YearStart(y + 2)
    ensures InYear(s, r)
    ensures y - 1 <= r <= y + 1
  {
    if s < YearStart(y) then y - 1
    else if s >= YearStart(y + 1) then y + 1
    else y
  }

  /** Days of year `y` before the first of month `m`. */
  function DaysBeforeMonth(y: int, m: int): int
    requires 1 <= m <= 12
  {
    var table := [0, 31, 59, 90, 120, 151, 181, 212, 243, 273, 304, 334];
    table[m - 1] + (if m > 2 && IsLeapYear(y) then 1 else 0)
  }

  /** `Date.UTC(y, m - 1, day) / 86400000`. The day is not range-checked:
      like `Date.UTC`, an overflowing day runs on into the next month. */
  function UtcDay(y: int, m: int, day: int): int
    requires 1 <= m <= 12
  {
    YearStart(y) + DaysBeforeMonth(y, m) + day - 1
  }

  function Serial(d: Date): int
    requires ValidDate(d)
  {
    UtcDay(d.year, d.month, d.day)
  }

  /** Any day that some year's month can have lies inside the year when
      counted from that month's start; in particular a valid date lies in its
      own year. */
  lemma DayWithinYear(y: int, m: int, day: int, other: int)
    requires 1 <= m <= 12 && 1 <= day <= DaysInMonth(other, m)
    ensures InYear(UtcDay(y, m, day), y)
  {
    NextYearStart(y);
  }

  /** Consecutive valid dates have consecutive serials, so the serial of a
      date is the number of days since 1970-01-01. */
  lemma SerialOfNextDay(d: Date)
    requires ValidDate(d)
    ensures ValidDate(NextDay(d))
    ensures Serial(NextDay(d)) == Serial(d) + 1
  {
    if d.day == DaysInMonth(d.year, d.month) && d.month == 12 {
      NextYearStart(d.year);
    }
  }

  /** The calendar date after `d`. */
  function NextDay(d: Date): Date
    requires ValidDate(d)
  {
    if d.day < DaysInMonth(d.year, d.month) then Date(d.year, d.month, d.day + 1)
    else if d.month < 12 then Date(d.year, d.month + 1, 1)
    else Date(d.year + 1, 1, 1)
  }

  /** Distinct valid dates have distinct serials. */
  lemma SerialInjective(d1: Date, d2: Date)
    requires ValidDate(d1) && ValidDate(d2)
    requires Serial(d1) == Serial(d2)
    ensures d1 == d2
  {
    DayWithinYear(d1.year, d1.month, d1.day, d1.year);
    DayWithinYear(d2.year, d2.month, d2.day, d2.year);
    InYearUnique(Serial(d1), d1.year, d2.year);
    var y := d1.year;
    if d1.month < d2.month {
      MonthsApart(y, d1.month, d2.month);
    } else if d2.month < d1.month {
      MonthsApart(y, d2.month, d1.month);
    }
  }

  /** A later month of the same year starts after every day of an earlier
      one. */
  lemma MonthsApart(y: int, m1: int, m2: int)
    requires 1 <= m1 < m2 <= 12
    ensures DaysBeforeMonth(y, m1) + DaysInMonth(y, m1) <= DaysBeforeMonth(y, m2)
  {
  }

  /** `getUTCDay`: 0 is Sunday, 1 Monday, ..., 6 Saturday; 1970-01-01 was a
      Thursday. */
  function WeekDay(s: int): (w: int)
    ensures 0 <= w < 7
  {
    (s + 4) % 7
  }

  /** `getUTCDay() || 7`: the ISO day number, Monday 1 through Sunday 7. */
  function IsoDayNum(s: int): (k: int)
    ensures 1 <= k <= 7
    ensures (s + 4 - k) % 7 == 0
  {
    if WeekDay(s) == 0 then 7 else WeekDay(s)
  }

  /** The Thursday of the Monday-to-Sunday week holding `s`: the
      `setUTCDate(getUTCDate() + 4 - dayNum)` step. */
  function Thursday(s: int): (t: int)
    ensures s - 3 <= t <= s + 3
    ensures WeekDay(t) == 4
  {
    s + 4 - IsoDayNum(s)
  }

  /** The Monday of the week holding `s`. */
  function Monday(s: int): (m: int)
    ensures s - 6 <= m <= s
    ensures WeekDay(m) == 1
  {
    s - IsoDayNum(s) + 1
  }

  /** `Math.ceil(x / 7)` for an integer `x`. */
  function CeilDiv7(x: int): (q: int)
    ensures 7 * q - 7 < x <= 7 * q
  {
    (x + 6) / 7
  }

  /** The ISO year of a date: the year its week's Thursday falls in. */
  function IsoYear(d: Date): (y: int)
    requires ValidDate(d)
    ensures InYear(Thursday(Serial(d)), y)
  {
    DayWithinYear(d.year, d.month, d.day, d.year);
    NextYearStart(d.year - 1);
    NextYearStart(d.year + 1);
    YearNear(Thursday(Serial(d)), d.year)
  }

  /** The week number computed the way `getWeek` computes it, with every
      year taken literally: the ceiling of (days from January 1 of the
      Thursday's year to the Thursday, plus one) over seven. */
  function IsoWeek(d: Date): (w: int)
    requires ValidDate(d)
    ensures 1 <= w <= 53
  {
    var t := Thursday(Serial(d));
    var y := IsoYear(d);
    NextYearStart(y);
    CeilDiv7(t - YearStart(y) + 1)
  }

  /** Monday of the week holding 4 January of year `y`, which is the Monday
      of week 1 of `y`. */
  function Week1Monday(y: int): int {
    Monday(YearStart(y) + 3)
  }

  /** Independent statement of the ISO rule: one more than the number of
      whole weeks from the Monday of week 1 of the ISO year to the Monday of
      the date's week. */
  function ReferenceWeek(d: Date): int
    requires ValidDate(d)
  {
    (Monday(Serial(d)) - Week1Monday(IsoYear(d))) / 7 + 1
  }

  /** Days with the same week day are a whole number of weeks apart. */
  lemma SameWeekDayWholeWeeks(a: int, b: int)
    requires WeekDay(a) == WeekDay(b)
    ensures (a - b) % 7 == 0
  {
    var qa, qb := (a + 4) / 7, (b + 4) / 7;
    assert a + 4 == 7 * qa + WeekDay(a);
    assert b + 4 == 7 * qb + WeekDay(b);
    assert a - b == 7 * (qa - qb);
  }

  lemma CeilDiv7Of(q: int, r: int)
    requires 1 <= r <= 7
    ensures CeilDiv7(7 * q + r) == q + 1
  {
  }

  /** The computed week number agrees with the ISO rule on every valid
      date. */
  lemma IsoWeekMatchesReference(d: Date)
    requires ValidDate(d)
    ensures IsoWeek(d) == ReferenceWeek(d)
    ensures (Monday(Serial(d)) - Week1Monday(IsoYear(d))) % 7 == 0
  {
    var s := Serial(d);
    var t := Thursday(s);
    var y := IsoYear(d);
    var j := YearStart(y);
    var m1 := Week1Monday(y);
    var kk := IsoDayNum(j + 3);
    assert Monday(s) == t - 3;
    assert m1 == j + 4 - kk;
    // t and m1 + 3 are both Thursdays, so they are a whole number of weeks apart.
    SameWeekDayWholeWeeks(Monday(s), m1);
    var q := (t - 3 - m1) / 7;
    assert t - 3 - m1 == 7 * q;
    assert t - j + 1 == 7 * q + (8 - kk);
    CeilDiv7Of(q, 8 - kk);
    assert IsoWeek(d) == q + 1;
  }

  /** Two dates of the same Monday-to-Sunday week get the same week
      number; in particular Sunday (day 7) belongs to the week that began on
      the Monday before it. */
  lemma SameWeekSameNumber(d1: Date, d2: Date)
    requires ValidDate(d1) && ValidDate(d2)
    requires Monday(Serial(d1)) == Monday(Serial(d2))
    ensures IsoYear(d1) == IsoYear(d2)
    ensures IsoWeek(d1) == IsoWeek(d2)
  {
    InYearUnique(Thursday(Serial(d1)), IsoYear(d1), IsoYear(d2));
  }

  /** Conversely, dates with the same ISO year and week number lie in the
      same Monday-to-Sunday week. */
  lemma SameNumberSameWeek(d1: Date, d2: Date)
    requires ValidDate(d1) && ValidDate(d2)
    requires IsoYear(d1) == IsoYear(d2) && IsoWeek(d1) == IsoWeek(d2)
    ensures Monday(Serial(d1)) == Monday(Serial(d2))
  {
    IsoWeekMatchesReference(d1);
    IsoWeekMatchesReference(d2);
  }

  /** The week of a date from its parts: once the Thursday of its week is
      known to lie in year `y`, the ISO year is `y` and the week number is
      counted from January 1 of `y`. */
  lemma WeekFromThursday(d: Date, t: int, y: int)
    requires ValidDate(d) && Thursday(Serial(d)) == t && InYear(t, y)
    ensures IsoYear(d) == y
    ensures IsoWeek(d) == CeilDiv7(t - YearStart(y) + 1)
  {
    InYearUnique(t, IsoYear(d), y);
  }

  /** The January 1 serials the worked examples need. */
  lemma ExampleYearStarts()
    ensures YearStart(2023) == 19358 && YearStart(2024) == 19723
    ensures YearStart(2025) == 20089 && YearStart(2026) == 20454
  {
  }

  /** Worked example: 2024-01-01, a Monday, opens week 1 of 2024. */
  lemma IsoWeekExampleYearOpening()
    ensures IsoWeek(Date(2024, 1, 1)) == 1
  {
    ExampleYearStarts();
    assert IsoDayNum(19723) == 1;
    WeekFromThursday(Date(2024, 1, 1), 19726, 2024);
  }

  /** Worked example: 2023-12-31, a Sunday, is day 7 of week 52 of 2023. */
  lemma IsoWeekExampleSunday()
    ensures IsoWeek(Date(2023, 12, 31)) == 52
  {
    ExampleYearStarts();
    assert IsoDayNum(19722) == 7;
    WeekFromThursday(Date(2023, 12, 31), 19719, 2023);
  }

  /** Worked example: 2024-12-30, a Monday, already belongs to week 1 of
      2025. */
  lemma IsoWeekExampleYearEnd()
    ensures IsoWeek(Date(2024, 12, 30)) == 1 && IsoYear(Date(2024, 12, 30)) == 2025
  {
    ExampleYearStarts();
    assert IsoDayNum(20087) == 1;
    WeekFromThursday(Date(2024, 12, 30), 20090, 2025);
  }

  /** `Date.UTC` reads a year in 0..99 as 1900 plus that year. */
  function UtcYear(y: int): int {
    if 0 <= y <= 99 then 1900 + y else y
  }

  /** `getWeek` as the source writes it: both `Date.UTC` calls pass the
      year through the two-digit-year rule, so the date is moved to
      1900..1999 when its year is 0..99, and January 1 of the Thursday's
      year is taken from 1900..1999 when that year is 0..99. */
  function GetWeekAsWritten(d: Date): int
    requires ValidDate(d)
  {
    var y1 := UtcYear(d.year);
    var s := UtcDay(y1, d.month, d.day);
    DayWithinYear(y1, d.month, d.day, d.year);
    NextYearStart(y1 - 1);
    NextYearStart(y1 + 1);
    var t := Thursday(s);
    var y := YearNear(t, y1);
    CeilDiv7(t - YearStart(UtcYear(y)) + 1)
  }

  /** Outside the two-digit years the source agrees with the ISO rule. */
  lemma AsWrittenAgreesOutsideTwoDigitYears(d: Date)
    requires ValidDate(d)
    requires d.year >= 101 || d.year <= -2
    ensures GetWeekAsWritten(d) == IsoWeek(d)
  {
    DayWithinYear(d.year, d.month, d.day, d.year);
    NextYearStart(d.year - 1);
    NextYearStart(d.year + 1);
    InYearUnique(Thursday(Serial(d)), IsoYear(d), YearNear(Thursday(Serial(d)), d.year));
  }

  /** 0100-01-01 is a Friday, so its Thursday is 0099-12-31; the source then
      measures from 1999-01-01 and produces a large negative week number. */
  lemma AsWrittenYear100Counterexample()
    ensures ValidDate(Date(100, 1, 1))
    ensures GetWeekAsWritten(Date(100, 1, 1)) < 0
    ensures IsoWeek(Date(100, 1, 1)) == 53
  {
    assert YearStart(99) == -683368;
    assert YearStart(100) == -683003;
    assert YearStart(1999) == 10592;
    assert IsoDayNum(-683003) == 5;
    assert Thursday(-683003) == -683004;
  }
}

=== FILE: datetext.dfy ===
/** The `YYYY-MM-DD` text a date field holds: the value of an HTML date input
    and the date part of `Date.prototype.toISOString`. The year is written
    with at least four digits (zero-padded), month and day with two. */
module DateText {
  import opened Wrappers
  import opened Calendar
  import Text

  predicate IsDigit(c: char) {
    '0' <= c <= '9'
  }

  function DigitChar(n: nat): (c: char)
    requires n < 10
    ensures IsDigit(c)
  {
    ('0' as int + n) as char
  }

  function DigitValue(c: char): (n: nat)
    requires IsDigit(c)
    ensures n < 10 && DigitChar(n) == c
  {
    c as int - '0' as int
  }

  predicate AllDigits(s: string) {
    forall i :: 0 <= i < |s| ==> IsDigit(s[i])
  }

  /** Decimal value of a digit string, most significant digit first. */
  function DigitsValue(s: string): nat
    requires AllDigits(s)
  {
    if |s| == 0 then 0 else 10 * DigitsValue(s[..|s| - 1]) + DigitValue(s[|s| - 1])
  }

  /** Shortest decimal numeral of `n`. */
  function Numeral(n: nat): (s: string)
    ensures |s| >= 1 && AllDigits(s)
    ensures n < 100 ==> |s| <= 2
  {
    if n < 10 then [DigitChar(n)] else Numeral(n / 10) + [DigitChar(n % 10)]
  }

  lemma {:induction false} NumeralValue(n: nat)
    ensures DigitsValue(Numeral(n)) == n
  {
    if n >= 10 {
      var s := Numeral(n);
      assert s[..|s| - 1] == Numeral(n / 10);
      NumeralValue(n / 10);
    }
  }

  /** `s` left-padded with zeros to at least `width` characters. */
  function PadZeros(s: string, width: nat): (r: string)
    ensures |r| >= width && |r| >= |s|
    ensures |s| <= width ==> |r| == width
    ensures AllDigits(s) ==> AllDigits(r)
    decreases width - |s|
  {
    if |s| >= width then s else PadZeros("0" + s, width)
  }

  /** Leading zeros do not change a numeral's value. */
  lemma {:induction false} LeadingZeroValue(s: string)
    requires AllDigits(s)
    ensures DigitsValue("0" + s) == DigitsValue(s)
    decreases |s|
  {
    if |s| > 0 {
      var t := "0" + s;
      assert t[..|t| - 1] == "0" + s[..|s| - 1];
      LeadingZeroValue(s[..|s| - 1]);
    }
  }

  lemma {:induction false} PadZerosValue(s: string, width: nat)
    requires AllDigits(s)
    ensures DigitsValue(PadZeros(s, width)) == DigitsValue(s)
    decreases width - |s|
  {
    if |s| < width {
      LeadingZeroValue(s);
      PadZerosValue("0" + s, width);
    }
  }

  /** Padded numeral of `n` with at least `width` digits. */
  function Padded(n: nat, width: nat): (s: string)
    ensures |s| >= width && AllDigits(s)
    ensures n < 100 && width == 2 ==> |s| == 2
    ensures DigitsValue(s) == n
  {
    NumeralValue(n);
    PadZerosValue(Numeral(n), width);
    PadZeros(Numeral(n), width)
  }

  /** The `YYYY-MM-DD` text of a date of year 0 or later. */
  function Format(d: Date): (s: string)
    requires ValidDate(d) && d.year >= 0
    ensures |s| >= 10
  {
    Padded(d.year, 4) + "-" + Padded(d.month, 2) + "-" + Padded(d.day, 2)
  }

  /** The text is digits, a dash, two digits, a dash and two digits, with at
      least four digits before the first dash. The dashes sit at fixed
      places counted from the end. */
  predicate DateShaped(s: string) {
    && |s| >= 10 && s[|s| - 6] == '-' && s[|s| - 3] == '-'
    && AllDigits(s[..|s| - 6]) && AllDigits(s[|s| - 5..|s| - 3]) && AllDigits(s[|s| - 2..])
  }

  /** The year, month and day a date-shaped text spells. */
  function ShapedDate(s: string): Date
    requires DateShaped(s)
  {
    Date(DigitsValue(s[..|s| - 6]), DigitsValue(s[|s| - 5..|s| - 3]), DigitsValue(s[|s| - 2..]))
  }

  /** Reads `YYYY-MM-DD` (four or more year digits, exactly two month and day
      digits) back into a date; anything else, including an impossible day
      such as 2023-02-29, is `None`. */
  function Parse(s: string): (r: Option<Date>)
    ensures r.Some? <==> DateShaped(s) && ValidDate(ShapedDate(s))
    ensures r.Some? ==> r.value == ShapedDate(s) && ValidDate(r.value) && r.value.year >= 0
  {
    ShapedSplit(s);
    var parts := Text.Split(s, '-');
    if |parts| != 3 then None
    else if !(|parts[0]| >= 4 && |parts[1]| == 2 && |parts[2]| == 2) then None
    else if !(AllDigits(parts[0]) && AllDigits(parts[1]) && AllDigits(parts[2])) then None
    else
      var d := Date(DigitsValue(parts[0]), DigitsValue(parts[1]), DigitsValue(parts[2]));
      if ValidDate(d) then Some(d) else None
  }

  /** Formatting then parsing gives back the date. */
  lemma FormatParse(d: Date)
    requires ValidDate(d) && d.year >= 0
    ensures Parse(Format(d)) == Some(d)
  {
    var y, m, dd := Padded(d.year, 4), Padded(d.month, 2), Padded(d.day, 2);
    assert Text.Join([m, dd], '-') == m + "-" + dd;
    assert Text.Join([y, m, dd], '-') == y + "-" + (m + "-" + dd);
    assert Format(d) == Text.Join([y, m, dd], '-');
    NoDash(y);
    NoDash(m);
    NoDash(dd);
    Text.SplitJoin([y, m, dd], '-');
  }

  /** Splitting at the dashes finds the three pieces exactly when the text
      is date-shaped, and the pieces are then the slices between the
      dashes. */
  lemma ShapedSplit(s: string)
    ensures var parts := Text.Split(s, '-');
      (DateShaped(s) <==>
        && |parts| == 3 && |parts[0]| >= 4 && |parts[1]| == 2 && |parts[2]| == 2
        && AllDigits(parts[0]) && AllDigits(parts[1]) && AllDigits(parts[2]))
    ensures DateShaped(s) ==> Text.Split(s, '-') == [s[..|s| - 6], s[|s| - 5..|s| - 3], s[|s| - 2..]]
  {
    var parts := Text.Split(s, '-');
    if DateShaped(s) {
      var y, m, d := s[..|s| - 6], s[|s| - 5..|s| - 3], s[|s| - 2..];
      NoDash(y);
      NoDash(m);
      NoDash(d);
      assert Text.Join([m, d], '-') == m + "-" + d;
      assert Text.Join([y, m, d], '-') == y + "-" + (m + "-" + d);
      assert s == y + "-" + (m + "-" + d);
      Text.SplitJoin([y, m, d], '-');
    } else if && |parts| == 3 && |parts[0]| >= 4 && |parts[1]| == 2 && |parts[2]| == 2 {
      Text.JoinSplit(s, '-');
      assert Text.Join(parts[1..], '-') == parts[1] + "-" + parts[2];
      assert s == parts[0] + "-" + (parts[1] + "-" + parts[2]);
      SlicesOfDate(parts[0], parts[1], parts[2]);
    }
  }

  /** In `y-mm-dd` the three pieces are the slices before the sixth place
      from the end, between the dashes, and after the last dash. */
  lemma SlicesOfDate(y: string, m: string, d: string)
    requires |m| == 2 && |d| == 2
    ensures var s := y + "-" + (m + "-" + d);
      && s[|s| - 6] == '-' && s[|s| - 3] == '-'
      && s[..|s| - 6] == y && s[|s| - 5..|s| - 3] == m && s[|s| - 2..] == d
  {
    var s := y + "-" + (m + "-" + d);
    assert s[..|y|] == y;
    assert s[|y| + 1..|y| + 3] == m;
    assert s[|y| + 4..] == d;
  }

  lemma NoDash(s: string)
    requires AllDigits(s)
    ensures '-' !in s
  {
  }
}

=== FILE: grade_management.dfy ===
/** The grade screen: a form with a grade name and an optional class section,
    and the grade list it appends to, written to the `grades` entry after
    every change. Grades are never checked for duplicates. */
module GradeManagement {
  import opened Wrappers
  import opened Records
  import Text
  import Store

  /** The form's three fields: the two inputs and the error line. */
  datatype GradeForm = GradeForm(gradeName: string, classSection: string, error: string)

  const EmptyForm := GradeForm("", "", "")
  const NameRequired := "Please enter a grade name"

  datatype Screen = Screen(grades: seq<Grade>, form: GradeForm, store: Store.Store)

  predicate Persisted(s: Screen) {
    Store.LoadGrades(s.store) == s.grades
  }

  /** The screen opens: the grades are read from storage and the effect's
      first run writes them back. */
  function Mount(store: Store.Store): (s: Screen)
    ensures s.grades == Store.LoadGrades(store) && s.form == EmptyForm
    ensures Persisted(s)
    ensures Store.OthersUnchanged(store, s.store, Store.GradesKey)
  {
    var grades := Store.LoadGrades(store);
    Screen(grades, EmptyForm, Store.SaveGrades(store, grades))
  }

  /** The grade a submit creates: the name as typed, the section only when
      one was typed. */
  function NewGrade(form: GradeForm, id: string): (g: Grade)
    ensures g.id == id && g.name == form.gradeName
    ensures g.section.Some? <==> form.classSection != ""
    ensures g.section.Some? ==> g.section.value == form.classSection
  {
    Grade(id, form.gradeName, if form.classSection == "" then None else Some(form.classSection))
  }

  /** `handleSubmit`, with the fresh id passed in. */
  function Submit(s: Screen, id: string): (r: Screen)
    ensures Text.IsBlank(s.form.gradeName) ==>
      r == s.(form := s.form.(error := NameRequired))
    ensures !Text.IsBlank(s.form.gradeName) ==>
      && r.grades == s.grades + [NewGrade(s.form, id)]
      && r.form == EmptyForm
      && Persisted(r)
      && Store.OthersUnchanged(s.store, r.store, Store.GradesKey)
  {
    if Text.Trim(s.form.gradeName) == "" then
      s.(form := s.form.(error := NameRequired))
    else
      var grades := s.grades + [NewGrade(s.form, id)];
      Screen(grades, EmptyForm, Store.SaveGrades(s.store, grades))
  }

  /** Typing into a field changes that field only. */
  function EnterName(s: Screen, name: string): (r: Screen)
    ensures r.form.gradeName == name && r.form.classSection == s.form.classSection
    ensures r.form.error == s.form.error
    ensures r.grades == s.grades && r.store == s.store
  {
    s.(form := s.form.(gradeName := name))
  }

  function EnterSection(s: Screen, section: string): (r: Screen)
    ensures r.form.classSection == section && r.form.gradeName == s.form.gradeName
    ensures r.form.error == s.form.error
    ensures r.grades == s.grades && r.store == s.store
  {
    s.(form := s.form.(classSection := section))
  }

  /** Submitting the same name and section twice adds two grades that differ
      only in their ids. */
  lemma NoDuplicateCheck(s: Screen, name: string, section: string, id1: string, id2: string)
    requires !Text.IsBlank(name)
    ensures var s1 := Submit(EnterSection(EnterName(s, name), section), id1);
      var s2 := Submit(EnterSection(EnterName(s1, name), section), id2);
      && |s2.grades| == |s.grades| + 2
      && s2.grades[|s.grades|] == s2.grades[|s.grades| + 1].(id := id1)
      && s2.grades[|s.grades| + 1].id == id2
  {
  }

  /** Every submit keeps the stored list equal to the screen's list. */
  lemma SubmitKeepsPersisted(s: Screen, id: string)
    requires Persisted(s)
    ensures Persisted(Submit(s, id))
  {
  }
}

=== FILE: individual_student_form.dfy ===
/** The one-student entry form: name, grade, optional email and optional
    picture. The picture is checked before it is read and the form refuses
    to submit while a read is under way. */
module IndividualStudentForm {
  import opened Wrappers
  import opened Records
  import Text
  import Seqs

  /** A chosen image file: its size in bytes and MIME type. */
  datatype ImageFile = ImageFile(size: nat, mimeType: string)

  datatype ImageError = TooLarge | UnsupportedType

  const MaxImageBytes: nat := 5 * 1024 * 1024
  const ImageTypes: set<string> := {"image/jpeg", "image/png", "image/gif"}

  /** `validateImage`: the size is checked first, then the type. */
  function ValidateImage(f: ImageFile): (r: Option<ImageError>)
    ensures r.None? <==> f.size <= 5242880 && f.mimeType in {"image/jpeg", "image/png", "image/gif"}
    ensures f.size > 5242880 ==> r == Some(TooLarge)
  {
    if f.size > MaxImageBytes then Some(TooLarge)
    else if f.mimeType !in ImageTypes then Some(UnsupportedType)
    else None
  }

  /** The four text fields. `picture` holds a data URL once read. */
  datatype StudentFields = StudentFields(name: string, gradeId: string, email: string, picture: string)

  const EmptyFields := StudentFields("", "", "", "")

  datatype Form = Form(fields: StudentFields, processingImage: bool)

  /** A picture was chosen: a rejected one changes nothing; an accepted one
      starts a read. */
  function ChooseImage(f: Form, file: Option<ImageFile>): (r: Form)
    ensures file.None? || ValidateImage(file.value).Some? ==> r == f
    ensures file.Some? && ValidateImage(file.value).None? ==> r == f.(processingImage := true)
  {
    match file
    case None => f
    case Some(img) => if ValidateImage(img).Some? then f else f.(processingImage := true)
  }

  /** The read finished with the data URL. */
  function ImageRead(f: Form, dataUrl: string): (r: Form)
    ensures r.fields == f.fields.(picture := dataUrl) && !r.processingImage
  {
    Form(f.fields.(picture := dataUrl), false)
  }

  /** The read failed. The error handler ends processing, and the load-end
      handler still runs after it and stores the reader's `null` result as
      the picture, so an earlier picture is lost. `null` is written as the
      empty text: both are falsy, and the picture is only ever tested for
      truth. */
  function ImageReadFailed(f: Form): (r: Form)
    ensures r.fields == f.fields.(picture := "") && !r.processingImage
  {
    Form(f.fields.(picture := ""), false)
  }

  /** Starting the read threw: only the error path runs, and the picture
      stays as it was. */
  function ReadNotStarted(f: Form): (r: Form)
    ensures r.fields == f.fields && !r.processingImage
  {
    f.(processingImage := false)
  }

  /** A read that fails after an earlier picture was read leaves the form
      with no picture, so the student submitted next has none. */
  lemma FailedReadDropsPicture(f: Form, dataUrl: string, id: string)
    ensures ImageReadFailed(ImageRead(f, dataUrl)).fields.picture == ""
    ensures NewStudent(ImageReadFailed(ImageRead(f, dataUrl)).fields, id).picture.None?
  {
  }

  datatype SubmitError = StillProcessing | NameRequired | GradeRequired | UnknownGrade

  /** `grades.find(g => g.id === id)`: the first grade with that id. */
  function FindGrade(grades: seq<Grade>, id: string): (r: Option<Grade>)
    ensures r.None? <==> forall i :: 0 <= i < |grades| ==> grades[i].id != id
    ensures r.Some? ==> r.value in grades && r.value.id == id
    ensures forall k :: 0 <= k < |grades| && grades[k].id == id && (forall i :: 0 <= i < k ==> grades[i].id != id) ==>
      r == Some(grades[k])
  {
    if |grades| == 0 then None
    else if grades[0].id == id then Some(grades[0])
    else
      assert forall k :: 1 <= k < |grades| ==> grades[k] == grades[1..][k - 1];
      FindGrade(grades[1..], id)
  }

  /** The student `handleSubmit` builds, with the fresh id passed in: the
      trimmed name, the email (trimmed) only when something was typed, the
      picture only when one was read. */
  function NewStudent(fields: StudentFields, id: string): (st: Student)
    ensures st.id == id && st.name == Text.Trim(fields.name) && st.gradeId == fields.gradeId
    ensures st.email.Some? <==> fields.email != ""
    ensures st.email.Some? ==> st.email.value == Text.Trim(fields.email)
    ensures st.picture.Some? <==> fields.picture != ""
    ensures st.picture.Some? ==> st.picture.value == fields.picture
  {
    Student(
      id,
      Text.Trim(fields.name),
      fields.gradeId,
      if fields.email != "" then Some(Text.Trim(fields.email)) else None,
      if fields.picture != "" then Some(fields.picture) else None)
  }

  /** `handleSubmit`'s checks in source order, then the new student. */
  function Submit(f: Form, grades: seq<Grade>, id: string): (r: Result<Student, SubmitError>)
    ensures f.processingImage ==> r == Failure(StillProcessing)
    ensures !f.processingImage && Text.IsBlank(f.fields.name) ==> r == Failure(NameRequired)
    ensures !f.processingImage && !Text.IsBlank(f.fields.name) && f.fields.gradeId == "" ==>
      r == Failure(GradeRequired)
    ensures (!f.processingImage && !Text.IsBlank(f.fields.name) && f.fields.gradeId != "" &&
             FindGrade(grades, f.fields.gradeId).None?) ==> r == Failure(UnknownGrade)
    ensures r.Success? <==>
      && !f.processingImage && !Text.IsBlank(f.fields.name) && f.fields.gradeId != ""
      && exists i :: 0 <= i < |grades| && grades[i].id == f.fields.gradeId
    ensures r.Success? ==> r.value == NewStudent(f.fields, id)
    ensures r.Success? ==> r.value.name != "" && Text.Trim(r.value.name) == r.value.name
  {
    if f.processingImage then Failure(StillProcessing)
    else if Text.Trim(f.fields.name) == "" then Failure(NameRequired)
    else if f.fields.gradeId == "" then Failure(GradeRequired)
    else if FindGrade(grades, f.fields.gradeId).None? then Failure(UnknownGrade)
    else
      Text.TrimIdempotent(f.fields.name);
      Success(NewStudent(f.fields, id))
  }

  /** `resetForm`. */
  function ResetForm(f: Form): (r: Form)
    ensures r.fields == EmptyFields && r.processingImage == f.processingImage
  {
    f.(fields := EmptyFields)
  }

  /** What the form holds after a submit: cleared after a success, as it was
      after a refusal. */
  function AfterSubmit(f: Form, grades: seq<Grade>, id: string): (r: Form)
    ensures Submit(f, grades, id).Success? ==> r.fields == EmptyFields
    ensures Submit(f, grades, id).Failure? ==> r == f
  {
    if Submit(f, grades, id).Success? then ResetForm(f) else f
  }

  // ---------------------------------------------------------------------
  // The email field. It is an `<input type="email">`, so what its change
  // handler stores is the browser's sanitized value: line breaks removed,
  // then leading and trailing ASCII whitespace (tab, line feed, form feed,
  // carriage return, space) stripped, as section 4.10.5.1.5 of the HTML
  // standard prescribes for that input type.

  /** ASCII whitespace as the HTML standard defines it; unlike `trim` it
      leaves the vertical tab alone. */
  predicate HtmlSpace(c: char) {
    c == '\t' || c == '\n' || c == '\U{000C}' || c == '\r' || c == ' '
  }

  function NotLineBreak(): char -> bool {
    c => c != '\n' && c != '\r'
  }

  /** `s` without its leading ASCII whitespace. */
  function StripLeading(s: string): (r: string)
    ensures |r| <= |s| && r == s[|s| - |r|..]
    ensures forall k :: 0 <= k < |s| - |r| ==> HtmlSpace(s[k])
    ensures r == [] || !HtmlSpace(r[0])
  {
    if |s| > 0 && HtmlSpace(s[0]) then StripLeading(s[1..]) else s
  }

  /** `s` without its trailing ASCII whitespace. */
  function StripTrailing(s: string): (r: string)
    ensures |r| <= |s| && r == s[..|r|]
    ensures forall k :: |r| <= k < |s| ==> HtmlSpace(s[k])
    ensures r == [] || !HtmlSpace(r[|r| - 1])
  {
    if |s| > 0 && HtmlSpace(s[|s| - 1]) then StripTrailing(s[..|s| - 1]) else s
  }

  /** The value an email input reports for the typed text `raw`: no line
      breaks, no whitespace at either end, and empty exactly when nothing
      but whitespace was typed. */
  function SanitizeEmail(raw: string): (v: string)
    ensures forall k :: 0 <= k < |v| ==> v[k] in raw && v[k] != '\n' && v[k] != '\r'
    ensures v == [] || (!HtmlSpace(v[0]) && !HtmlSpace(v[|v| - 1]))
    ensures v == [] <==> forall k :: 0 <= k < |raw| ==> HtmlSpace(raw[k])
  {
    var lines := Seqs.Filter(NotLineBreak(), raw);
    var v := StripTrailing(StripLeading(lines));
    SanitizedEmpty(raw, lines);
    v
  }

  /** Stripping both ends empties the line-break-free text exactly when
      every character typed was whitespace. */
  lemma SanitizedEmpty(raw: string, lines: string)
    requires lines == Seqs.Filter(NotLineBreak(), raw)
    ensures StripTrailing(StripLeading(lines)) == [] <==> forall k :: 0 <= k < |raw| ==> HtmlSpace(raw[k])
  {
    var lead := StripLeading(lines);
    if StripTrailing(lead) == [] {
      assert lead == [];
      forall k | 0 <= k < |raw|
        ensures HtmlSpace(raw[k])
      {
        if NotLineBreak()(raw[k]) {
          assert raw[k] in lines;
        }
      }
    } else {
      var c := StripTrailing(lead)[0];
      assert c == lead[0] && c in lines;
      assert !HtmlSpace(c);
    }
  }

  /** The email field's change handler stores the sanitized value. */
  function EnterEmail(f: Form, raw: string): (r: Form)
    ensures r.fields.email == SanitizeEmail(raw)
    ensures r.fields.(email := f.fields.email) == f.fields && r.processingImage == f.processingImage
  {
    f.(fields := f.fields.(email := SanitizeEmail(raw)))
  }

  /** An email field holding only whitespace reads as empty, so the student
      gets no email; any other text typed there becomes the student's
      email, line breaks removed. */
  lemma BlankEmailDropped(f: Form, raw: string, id: string)
    ensures var st := NewStudent(EnterEmail(f, raw).fields, id);
      st.email.None? <==> forall k :: 0 <= k < |raw| ==> HtmlSpace(raw[k])
    ensures var st := NewStudent(EnterEmail(f, raw).fields, id);
      st.email.Some? ==> st.email.value == Text.Trim(SanitizeEmail(raw))
  {
  }
}

=== FILE: legacy_grades.dfy ===
/** The grade list of the earlier plain-script page. A grade there is a
    number 1..12 and a class letter A..Z or none; it has no id, and no two
    grades share both number and class. The add button reads the two inputs
    with `parseInt` and `trim().toUpperCase()`, checks them, and appends;
    each card's delete button removes its grade. */
module LegacyGrades {
  import opened Wrappers
  import opened Records
  import opened Seqs
  import Text
  import DateText
  import Store

  // ---------------------------------------------------------------------
  // `parseInt` without a radix.

  predicate IsHexDigit(c: char) {
    DateText.IsDigit(c) || 'a' <= c <= 'f' || 'A' <= c <= 'F'
  }

  function HexDigitValue(c: char): (n: nat)
    requires IsHexDigit(c)
    ensures n < 16
  {
    if DateText.IsDigit(c) then DateText.DigitValue(c)
    else if 'a' <= c <= 'f' then c as int - 'a' as int + 10
    else c as int - 'A' as int + 10
  }

  predicate AllHex(s: string) {
    forall i :: 0 <= i < |s| ==> IsHexDigit(s[i])
  }

  /** Value of a hexadecimal digit string, most significant digit first. */
  function HexValue(s: string): nat
    requires AllHex(s)
  {
    if |s| == 0 then 0 else 16 * HexValue(s[..|s| - 1]) + HexDigitValue(s[|s| - 1])
  }

  /** End of the run of decimal digits that starts at `j`. */
  function DigitRun(s: string, j: nat): (k: nat)
    requires j <= |s|
    ensures j <= k <= |s|
    ensures DateText.AllDigits(s[j..k])
    ensures k < |s| ==> !DateText.IsDigit(s[k])
    decreases |s| - j
  {
    if j < |s| && DateText.IsDigit(s[j]) then
      var k := DigitRun(s, j + 1);
      assert s[j..k] == [s[j]] + s[j + 1..k];
      k
    else j
  }

  /** End of the run of hexadecimal digits that starts at `j`. */
  function HexRun(s: string, j: nat): (k: nat)
    requires j <= |s|
    ensures j <= k <= |s|
    ensures AllHex(s[j..k])
    ensures k < |s| ==> !IsHexDigit(s[k])
    decreases |s| - j
  {
    if j < |s| && IsHexDigit(s[j]) then
      var k := HexRun(s, j + 1);
      assert s[j..k] == [s[j]] + s[j + 1..k];
      k
    else j
  }

  /** `parseInt(s)`: leading white space skipped, an optional sign, then a
      `0x`/`0X` prefix selects hexadecimal; the longest run of digits that
      follows is read and the rest ignored. No digits at all is `NaN`,
      here `None`. */
  function ParseInt(s: string): (r: Option<int>)
    ensures r.Some? ==> exists i :: 0 <= i < |s| && IsHexDigit(s[i])
  {
    var i := Text.SkipSpaces(s, 0);
    var negative := i < |s| && s[i] == '-';
    var j := if i < |s| && (s[i] == '-' || s[i] == '+') then i + 1 else i;
    var sign := if negative then -1 else 1;
    if j + 1 < |s| && s[j] == '0' && (s[j + 1] == 'x' || s[j + 1] == 'X') then
      var k := HexRun(s, j + 2);
      if k == j + 2 then None
      else
        assert IsHexDigit(s[j + 2..k][0]);
        Some(sign * HexValue(s[j + 2..k]))
    else
      var k := DigitRun(s, j);
      if k == j then None
      else
        assert DateText.IsDigit(s[j..k][0]);
        Some(sign * DateText.DigitsValue(s[j..k]))
  }

  /** The text `${n}` of an integer. */
  function IntText(n: int): (s: string)
    ensures |s| >= 1
  {
    if n < 0 then "-" + DateText.Numeral(-n) else DateText.Numeral(n)
  }

  /** `parseInt` reads back what `${n}` writes. */
  lemma ParseIntText(n: int)
    ensures ParseInt(IntText(n)) == Some(n)
  {
    var s := IntText(n);
    var m := if n < 0 then -n else n;
    var j := if n < 0 then 1 else 0;
    assert s[j..] == DateText.Numeral(m);
    assert Text.SkipSpaces(s, 0) == 0 by {
      assert !Text.IsSpace(s[0]);
    }
    assert DigitRun(s, j) == |s| by {
      DigitRunToEnd(s, j);
    }
    DateText.NumeralValue(m);
    assert s[j..|s|] == s[j..];
  }

  /** The reading stops at the first character that is not a digit, a
      `0x` prefix reads hexadecimal, and a text without digits is `NaN`. */
  lemma ParseIntExamples()
    ensures ParseInt("7.5") == Some(7)
    ensures ParseInt("0xC") == Some(12)
    ensures ParseInt(" -3") == Some(-3)
    ensures ParseInt("abc") == None
    ensures ParseInt("") == None
  {
    assert Text.SkipSpaces("7.5", 0) == 0;
    assert DigitRun("7.5", 0) == 1;
    assert "7.5"[0..1] == "7";
    assert "7"[..0] == "";
    assert DateText.DigitsValue("7") == 7;
    assert Text.SkipSpaces("0xC", 0) == 0;
    assert HexRun("0xC", 2) == 3;
    assert "0xC"[2..3] == "C";
    assert "C"[..0] == "";
    assert HexValue("C") == 12;
    assert Text.SkipSpaces(" -3", 0) == 1;
    assert DigitRun(" -3", 2) == 3;
    assert " -3"[2..3] == "3";
    assert "3"[..0] == "";
    assert Text.SkipSpaces("abc", 0) == 0;
    assert DigitRun("abc", 0) == 0;
  }

  /** A run over digits only reaches the end. */
  lemma {:induction false} DigitRunToEnd(s: string, j: nat)
    requires j <= |s|
    requires forall k :: j <= k < |s| ==> DateText.IsDigit(s[k])
    ensures DigitRun(s, j) == |s|
    decreases |s| - j
  {
    if j < |s| {
      DigitRunToEnd(s, j + 1);
    }
  }

  // ---------------------------------------------------------------------
  // The add button's checks.

  datatype Rejection = NumberMissing | NumberOutOfRange | ClassNotLetter

  /** A class as the page stores it: none, or one capital letter. */
  predicate ClassLetter(cls: string) {
    cls == "" || (|cls| == 1 && 'A' <= cls[0] <= 'Z')
  }

  /** A grade the add button can create. */
  predicate ValidGrade(g: LegacyGrade) {
    1 <= g.number <= 12 && ClassLetter(g.section)
  }

  /** The click handler's checks in source order: a number that is `NaN` or
      0, then one outside 1..12, then a class that after trimming and
      uppercasing is neither empty nor a single letter A..Z. */
  function ValidateInput(numberText: string, classText: string): (r: Result<LegacyGrade, Rejection>)
    ensures (ParseInt(numberText).None? || ParseInt(numberText).value == 0) <==> r == Failure(NumberMissing)
    ensures ParseInt(numberText).Some? && ParseInt(numberText).value != 0 && !(1 <= ParseInt(numberText).value <= 12) <==>
      r == Failure(NumberOutOfRange)
    ensures (ParseInt(numberText).Some? && 1 <= ParseInt(numberText).value <= 12 &&
             !ClassLetter(Text.ToUpper(Text.Trim(classText)))) <==> r == Failure(ClassNotLetter)
    ensures (ParseInt(numberText).Some? && 1 <= ParseInt(numberText).value <= 12 &&
             ClassLetter(Text.ToUpper(Text.Trim(classText)))) <==> r.Success?
    ensures r.Success? ==>
      && ValidGrade(r.value)
      && Some(r.value.number) == ParseInt(numberText)
      && r.value.section == Text.ToUpper(Text.Trim(classText))
  {
    var n := ParseInt(numberText);
    var cls := Text.ToUpper(Text.Trim(classText));
    if n.None? || n.value == 0 then Failure(NumberMissing)
    else if n.value < 1 || n.value > 12 then Failure(NumberOutOfRange)
    else if cls != "" && !(|cls| == 1 && 'A' <= cls[0] <= 'Z') then Failure(ClassNotLetter)
    else Success(LegacyGrade(n.value, cls))
  }

  /** The examples of the page: 13 and 0 are refused, two letters are
      refused, a padded small letter becomes the capital. */
  lemma ValidateExamples()
    ensures ValidateInput("13", "") == Failure(NumberOutOfRange)
    ensures ValidateInput("0", "") == Failure(NumberMissing)
    ensures ValidateInput("", "A") == Failure(NumberMissing)
    ensures ValidateInput("5", "AB") == Failure(ClassNotLetter)
    ensures ValidateInput("5", " a ") == Success(LegacyGrade(5, "A"))
  {
    ParseIntText(13);
    ParseIntText(0);
    ParseIntText(5);
    assert IntText(13) == "13";
    assert IntText(0) == "0";
    assert IntText(5) == "5";
    assert Text.Trim("AB") == "AB" by { Text.TrimUnchanged("AB"); }
    assert Text.SkipSpaces(" a ", 0) == 1;
    assert Text.SkipSpacesBack(" a ", 1, 3) == 2;
    assert Text.Trim(" a ") == "a";
    assert Text.ToUpper("a") == "A";
  }

  // ---------------------------------------------------------------------
  // The page state and its two operations.

  datatype Notice = Rejected(reason: Rejection) | AlreadyExists | GradeAdded | GradeDeleted

  /** The page: the grade list, the storage, the two inputs and the last
      notification. */
  datatype Page = Page(
    grades: seq<LegacyGrade>,
    store: Store.Store,
    numberInput: string,
    classInput: string,
    notice: Option<Notice>)

  predicate Persisted(p: Page) {
    Store.LoadLegacyGrades(p.store) == p.grades
  }

  /** The page loads the stored list and writes nothing. */
  function Load(store: Store.Store): (p: Page)
    ensures p.grades == Store.LoadLegacyGrades(store) && p.store == store && Persisted(p)
  {
    Page(Store.LoadLegacyGrades(store), store, "", "", None)
  }

  /** `addGrade`: a grade already on the list is refused without writing;
      otherwise it is appended and the whole list written. */
  function AddGrade(p: Page, g: LegacyGrade): (r: Page)
    ensures g in p.grades ==> r == p.(notice := Some(AlreadyExists))
    ensures g !in p.grades ==>
      && r.grades == p.grades + [g]
      && Persisted(r)
      && Store.OthersUnchanged(p.store, r.store, Store.GradesKey)
      && r.notice == Some(GradeAdded)
  {
    if g in p.grades then p.(notice := Some(AlreadyExists))
    else
      var grades := p.grades + [g];
      p.(grades := grades, store := Store.SaveLegacyGrades(p.store, grades), notice := Some(GradeAdded))
  }

  /** The add button: a refusal only shows its reason; otherwise `addGrade`
      runs and both inputs are cleared, also when the grade already
      existed. */
  function ClickAdd(p: Page): (r: Page)
    ensures ValidateInput(p.numberInput, p.classInput).Failure? ==>
      r == p.(notice := Some(Rejected(ValidateInput(p.numberInput, p.classInput).error)))
    ensures ValidateInput(p.numberInput, p.classInput).Success? ==>
      r.numberInput == "" && r.classInput == ""
    ensures var v := ValidateInput(p.numberInput, p.classInput);
      v.Success? && v.value !in p.grades ==>
        && r.grades == p.grades + [v.value]
        && Persisted(r) && Store.OthersUnchanged(p.store, r.store, Store.GradesKey)
        && r.notice == Some(GradeAdded)
    ensures var v := ValidateInput(p.numberInput, p.classInput);
      v.Success? && v.value in p.grades ==>
        r.grades == p.grades && r.store == p.store && r.notice == Some(AlreadyExists)
    ensures |p.grades| <= |r.grades| <= |p.grades| + 1
    ensures r.grades[..|p.grades|] == p.grades
  {
    match ValidateInput(p.numberInput, p.classInput)
    case Failure(e) => p.(notice := Some(Rejected(e)))
    case Success(g) => AddGrade(p, g).(numberInput := "", classInput := "")
  }

  /** The grade is not the pair `(number, cls)`; a `NaN` number matches no
      grade. */
  function NotPair(number: Option<int>, cls: string): LegacyGrade -> bool {
    (g: LegacyGrade) => !(number.Some? && g.number == number.value && g.section == cls)
  }

  /** `deleteGrade`: every grade with that number and class goes, the rest
      keep their order, and the list is written. */
  function DeleteGrade(p: Page, number: Option<int>, cls: string): (r: Page)
    ensures forall i :: 0 <= i < |r.grades| ==> r.grades[i] in p.grades && NotPair(number, cls)(r.grades[i])
    ensures forall i :: 0 <= i < |p.grades| && NotPair(number, cls)(p.grades[i]) ==> p.grades[i] in r.grades
    ensures |r.grades| == CountIf(NotPair(number, cls), p.grades)
    ensures IsSubsequence(r.grades, p.grades)
    ensures Persisted(r) && Store.OthersUnchanged(p.store, r.store, Store.GradesKey)
  {
    FilterIsSubsequence(NotPair(number, cls), p.grades);
    var grades := Filter(NotPair(number, cls), p.grades);
    p.(grades := grades, store := Store.SaveLegacyGrades(p.store, grades), notice := Some(GradeDeleted))
  }

  /** The grade is not `g`. */
  function NotGrade(g: LegacyGrade): LegacyGrade -> bool {
    (x: LegacyGrade) => x != g
  }

  /** A card's delete button: its number goes through `${...}` and
      `parseInt`, its class through the data attribute. The round trip
      finds the card's own grade, so exactly the copies of it go. */
  function ClickDelete(p: Page, g: LegacyGrade): (r: Page)
    ensures g !in r.grades
    ensures forall i :: 0 <= i < |p.grades| && p.grades[i] != g ==> p.grades[i] in r.grades
    ensures |r.grades| == CountIf(NotGrade(g), p.grades)
    ensures IsSubsequence(r.grades, p.grades)
    ensures Persisted(r) && Store.OthersUnchanged(p.store, r.store, Store.GradesKey)
  {
    ParseIntText(g.number);
    FilterSame(NotPair(Some(g.number), g.section), NotGrade(g), p.grades);
    DeleteGrade(p, ParseInt(IntText(g.number)), g.section)
  }

  /** Deleting a pair that is not on the list keeps the list. */
  lemma DeleteAbsent(p: Page, number: int, cls: string)
    requires LegacyGrade(number, cls) !in p.grades
    ensures DeleteGrade(p, Some(number), cls).grades == p.grades
  {
    FilterKeepsAll(NotPair(Some(number), cls), p.grades);
  }

  /** The page's invariant: no pair twice, every grade valid. */
  predicate Good(p: Page) {
    Distinct(p.grades) && forall i :: 0 <= i < |p.grades| ==> ValidGrade(p.grades[i])
  }

  /** Both buttons keep the invariant. */
  lemma ClickAddKeepsGood(p: Page)
    requires Good(p)
    ensures Good(ClickAdd(p))
  {
    var v := ValidateInput(p.numberInput, p.classInput);
    if v.Success? && v.value !in p.grades {
      var grades := p.grades + [v.value];
      assert ClickAdd(p).grades == grades;
      forall i, j | 0 <= i < j < |grades| ensures grades[i] != grades[j] {
        if j == |p.grades| {
          assert grades[i] in p.grades;
        }
      }
    }
  }

  lemma DeleteKeepsGood(p: Page, number: Option<int>, cls: string)
    requires Good(p)
    ensures Good(DeleteGrade(p, number, cls))
  {
    FilterDistinct(NotPair(number, cls), p.grades);
  }

  /** A grade already on the list is refused and nothing is written, but
      the inputs are still cleared. */
  lemma DuplicateRefused(p: Page)
    requires ValidateInput(p.numberInput, p.classInput).Success?
    requires ValidateInput(p.numberInput, p.classInput).value in p.grades
    ensures ClickAdd(p).grades == p.grades && ClickAdd(p).store == p.store
    ensures ClickAdd(p).notice == Some(AlreadyExists)
    ensures ClickAdd(p).numberInput == "" && ClickAdd(p).classInput == ""
  {
  }
}

=== FILE: records.dfy ===
/** The record shapes of src/types.ts. Dafny reserves `class` and `type`, so
    the grade's `class` field is `section` here and the assignment's `type`
    field is `kind`; optional fields (`class?`, `email?`, `picture?`) are
    `Option`s. */
module Records {
  import opened Wrappers

  /** The four kinds of tracked work; there is no other. */
  datatype AssignmentType = Homework | Classwork | Worksheet | Project

  /** The string a kind is stored and compared as. */
  function TypeName(t: AssignmentType): string {
    match t
    case Homework => "homework"
    case Classwork => "classwork"
    case Worksheet => "worksheet"
    case Project => "project"
  }

  /** Reads a stored kind back; only the four names are kinds. */
  function ParseType(s: string): (r: Option<AssignmentType>)
    ensures r.Some? <==> s in {"homework", "classwork", "worksheet", "project"}
    ensures r.Some? ==> TypeName(r.value) == s
  {
    if s == "homework" then Some(Homework)
    else if s == "classwork" then Some(Classwork)
    else if s == "worksheet" then Some(Worksheet)
    else if s == "project" then Some(Project)
    else None
  }

  /** Every kind's name reads back as that kind, so the four names are
      distinct and the closed set has exactly four members. */
  lemma TypeNameRoundTrip(t: AssignmentType)
    ensures ParseType(TypeName(t)) == Some(t)
  {
  }

  /** The operator profile captured by the setup form. */
  datatype TeacherInfo = TeacherInfo(name: string, schoolLogo: string, appName: string)

  /** A grade of the React application: an opaque id, a free-text name and
      an optional class section. */
  datatype Grade = Grade(id: string, name: string, section: Option<string>)

  /** A student belongs to one grade through `gradeId`; `email` and
      `picture` (a data URL) are optional. */
  datatype Student = Student(
    id: string,
    name: string,
    gradeId: string,
    email: Option<string>,
    picture: Option<string>)

  /** A missing-work record: which students of one grade did not hand in a
      piece of work of some kind. `number` is a free-text label (possibly
      empty), `date` the `YYYY-MM-DD` text of the day it was due and
      `weekNumber` that day's ISO week. */
  datatype Assignment = Assignment(
    id: string,
    kind: AssignmentType,
    name: string,
    number: string,
    date: string,
    weekNumber: int,
    gradeId: string,
    studentIds: seq<string>)

  /** A grade of the earlier plain-script page: a grade number and a class
      letter, "" for none. It has no id; the pair identifies it. */
  datatype LegacyGrade = LegacyGrade(number: int, section: string)
}

=== FILE: seqs.dfy ===
/** Order-preserving filtering of record lists: the `Array.prototype.filter`
    that every registry and view of the application is built from. */
module Seqs {

  /** `a` is obtained from `b` by deleting zero or more elements, so the
      elements of `a` appear in `b` in the same relative order. */
  predicate IsSubsequence<T(==)>(a: seq<T>, b: seq<T>)
    decreases |b|
  {
    if |a| == 0 then true
    else if |b| == 0 then false
    else if a[0] == b[0] then IsSubsequence(a[1..], b[1..])
    else IsSubsequence(a, b[1..])
  }

  /** Number of elements of `s` that satisfy `p`. */
  function CountIf<T>(p: T -> bool, s: seq<T>): (n: nat)
    ensures n <= |s|
  {
    if |s| == 0 then 0
    else (if p(s[0]) then 1 else 0) + CountIf(p, s[1..])
  }

  /** The elements of `s` that satisfy `p`, in their original order. */
  function Filter<T(==)>(p: T -> bool, s: seq<T>): (r: seq<T>)
    ensures |r| == CountIf(p, s)
    ensures forall i :: 0 <= i < |r| ==> r[i] in s && p(r[i])
    ensures forall i :: 0 <= i < |s| && p(s[i]) ==> s[i] in r
  {
    if |s| == 0 then []
    else if p(s[0]) then [s[0]] + Filter(p, s[1..])
    else Filter(p, s[1..])
  }

  /** What is kept is a subsequence of the input: filtering never reorders. */
  lemma {:induction false} FilterIsSubsequence<T>(p: T -> bool, s: seq<T>)
    ensures IsSubsequence(Filter(p, s), s)
    decreases |s|
  {
    if |s| > 0 {
      FilterIsSubsequence(p, s[1..]);
      if p(s[0]) {
        assert Filter(p, s)[1..] == Filter(p, s[1..]);
      } else {
        SubsequenceOfTail(Filter(p, s), s);
      }
    }
  }

  /** A subsequence of a tail is a subsequence of the whole sequence. */
  lemma {:induction false} SubsequenceOfTail<T>(a: seq<T>, b: seq<T>)
    requires |b| > 0 && IsSubsequence(a, b[1..])
    ensures IsSubsequence(a, b)
    decreases |b|, 0
  {
    if |a| > 0 && a[0] == b[0] {
      SubsequenceDropHead(a, b[1..]);
    }
  }

  /** Dropping the first element of a non-empty subsequence keeps it a
      subsequence. */
  lemma {:induction false} SubsequenceDropHead<T>(a: seq<T>, b: seq<T>)
    requires |a| > 0 && IsSubsequence(a, b)
    ensures IsSubsequence(a[1..], b)
    decreases |b|, 1
  {
    assert |b| > 0;
    if a[0] == b[0] {
      SubsequenceOfTail(a[1..], b);
    } else {
      SubsequenceDropHead(a, b[1..]);
      SubsequenceOfTail(a[1..], b);
    }
  }

  /** When every element satisfies `p`, filtering returns the input unchanged. */
  lemma {:induction false} FilterKeepsAll<T>(p: T -> bool, s: seq<T>)
    requires forall i :: 0 <= i < |s| ==> p(s[i])
    ensures Filter(p, s) == s
    decreases |s|
  {
    if |s| > 0 {
      FilterKeepsAll(p, s[1..]);
      assert [s[0]] + s[1..] == s;
    }
  }

  /** When no element satisfies `p`, filtering returns the empty sequence. */
  lemma FilterKeepsNone<T>(p: T -> bool, s: seq<T>)
    requires forall i :: 0 <= i < |s| ==> !p(s[i])
    ensures Filter(p, s) == []
  {
  }

  /** Filtering distributes over concatenation. */
  lemma {:induction false} FilterAppend<T>(p: T -> bool, s: seq<T>, t: seq<T>)
    ensures Filter(p, s + t) == Filter(p, s) + Filter(p, t)
    decreases |s|
  {
    if |s| > 0 {
      assert (s + t)[1..] == s[1..] + t;
      FilterAppend(p, s[1..], t);
    } else {
      assert s + t == t;
    }
  }

  /** Filtering twice by the same predicate is the same as filtering once. */
  lemma FilterIdempotent<T>(p: T -> bool, s: seq<T>)
    ensures Filter(p, Filter(p, s)) == Filter(p, s)
  {
    FilterKeepsAll(p, Filter(p, s));
  }

  /** No element occurs twice. */
  predicate Distinct<T(==)>(s: seq<T>) {
    forall i, j :: 0 <= i < j < |s| ==> s[i] != s[j]
  }

  /** Filtering a list without repetitions gives one without repetitions. */
  lemma {:induction false} FilterDistinct<T>(p: T -> bool, s: seq<T>)
    requires Distinct(s)
    ensures Distinct(Filter(p, s))
    decreases |s|
  {
    if |s| > 0 {
      FilterDistinct(p, s[1..]);
      if p(s[0]) {
        var r := Filter(p, s);
        var rest := Filter(p, s[1..]);
        assert s[0] !in s[1..];
        assert s[0] !in rest;
        forall i, j | 0 <= i < j < |r| ensures r[i] != r[j] {
          if i == 0 {
            assert r[j] == rest[j - 1];
          } else {
            assert r[i] == rest[i - 1] && r[j] == rest[j - 1];
          }
        }
      }
    }
  }

  /** Being a subsequence is transitive. */
  lemma {:induction false} SubsequenceTransitive<T>(a: seq<T>, b: seq<T>, c: seq<T>)
    requires IsSubsequence(a, b) && IsSubsequence(b, c)
    ensures IsSubsequence(a, c)
    decreases |c|
  {
    if |a| > 0 {
      assert |b| > 0 && |c| > 0;
      if b[0] == c[0] {
        if a[0] == b[0] {
          SubsequenceTransitive(a[1..], b[1..], c[1..]);
        } else {
          SubsequenceTransitive(a, b[1..], c[1..]);
          SubsequenceOfTail(a, c);
        }
      } else {
        SubsequenceTransitive(a, b, c[1..]);
        SubsequenceOfTail(a, c);
      }
    }
  }

  /** Filtering by `p` and then by `q` is filtering once by a test that
      asks both. */
  lemma {:induction false} FilterFilter<T>(p: T -> bool, q: T -> bool, pq: T -> bool, s: seq<T>)
    requires forall i :: 0 <= i < |s| ==> pq(s[i]) == (p(s[i]) && q(s[i]))
    ensures Filter(q, Filter(p, s)) == Filter(pq, s)
    decreases |s|
  {
    if |s| > 0 {
      FilterFilter(p, q, pq, s[1..]);
      if p(s[0]) {
        assert Filter(p, s) == [s[0]] + Filter(p, s[1..]);
        FilterAppend(q, [s[0]], Filter(p, s[1..]));
      }
    }
  }

  /** Two predicates that agree on every element filter alike. */
  lemma {:induction false} FilterSame<T>(p: T -> bool, q: T -> bool, s: seq<T>)
    requires forall i :: 0 <= i < |s| ==> p(s[i]) == q(s[i])
    ensures Filter(p, s) == Filter(q, s)
    decreases |s|
  {
    if |s| > 0 {
      FilterSame(p, q, s[1..]);
    }
  }
}

=== FILE: store.dfy ===
/** The browser's persistent key-value storage, reduced to a map from key to
    the collection stored under it. Serialisation is not modelled: a value is
    stored as the collection itself, so what is read back is exactly what was
    written. */
module Store {
  import opened Wrappers
  import opened Records

  /** What a key can hold. */
  datatype Stored =
    | GradeList(grades: seq<Grade>)
    | StudentList(students: seq<Student>)
    | AssignmentList(assignments: seq<Assignment>)
    | LegacyGradeList(legacyGrades: seq<LegacyGrade>)
    | Profile(info: TeacherInfo)

  type Store = map<string, Stored>

  const GradesKey: string := "grades"
  const StudentsKey: string := "students"
  const AssignmentsKey: string := "assignments"
  const ProfileKey: string := "teacherInfo"

  /** Every key other than `key` holds in `after` what it held in `before`. */
  predicate OthersUnchanged(before: Store, after: Store, key: string) {
    && (forall k :: k in before && k != key ==> k in after && after[k] == before[k])
    && (forall k :: k in after && k != key ==> k in before)
  }

  /** `localStorage.setItem(key, ...)`. */
  function Put(store: Store, key: string, v: Stored): (r: Store)
    ensures key in r && r[key] == v
    ensures OthersUnchanged(store, r, key)
  {
    store[key := v]
  }

  /** `saved ? JSON.parse(saved) : []` for the grades key. */
  function LoadGrades(store: Store): seq<Grade> {
    if GradesKey in store && store[GradesKey].GradeList? then store[GradesKey].grades else []
  }

  function LoadStudents(store: Store): seq<Student> {
    if StudentsKey in store && store[StudentsKey].StudentList? then store[StudentsKey].students else []
  }

  function LoadAssignments(store: Store): seq<Assignment> {
    if AssignmentsKey in store && store[AssignmentsKey].AssignmentList? then store[AssignmentsKey].assignments else []
  }

  /** `JSON.parse(localStorage.getItem('grades')) || []` of the plain-script
      page, which keeps its grades under the same key. */
  function LoadLegacyGrades(store: Store): seq<LegacyGrade> {
    if GradesKey in store && store[GradesKey].LegacyGradeList? then store[GradesKey].legacyGrades else []
  }

  /** `saved ? JSON.parse(saved) : null` for the profile key. */
  function LoadProfile(store: Store): Option<TeacherInfo> {
    if ProfileKey in store && store[ProfileKey].Profile? then Some(store[ProfileKey].info) else None
  }

  function SaveGrades(store: Store, grades: seq<Grade>): (r: Store)
    ensures LoadGrades(r) == grades
    ensures OthersUnchanged(store, r, GradesKey)
  {
    Put(store, GradesKey, GradeList(grades))
  }

  function SaveStudents(store: Store, students: seq<Student>): (r: Store)
    ensures LoadStudents(r) == students
    ensures OthersUnchanged(store, r, StudentsKey)
  {
    Put(store, StudentsKey, StudentList(students))
  }

  function SaveAssignments(store: Store, assignments: seq<Assignment>): (r: Store)
    ensures LoadAssignments(r) == assignments
    ensures OthersUnchanged(store, r, AssignmentsKey)
  {
    Put(store, AssignmentsKey, AssignmentList(assignments))
  }

  function SaveLegacyGrades(store: Store, grades: seq<LegacyGrade>): (r: Store)
    ensures LoadLegacyGrades(r) == grades
    ensures OthersUnchanged(store, r, GradesKey)
  {
    Put(store, GradesKey, LegacyGradeList(grades))
  }

  function SaveProfile(store: Store, info: TeacherInfo): (r: Store)
    ensures LoadProfile(r) == Some(info)
    ensures OthersUnchanged(store, r, ProfileKey)
  {
    Put(store, ProfileKey, Profile(info))
  }
}

=== FILE: student_list.dfy ===
/** The student screen's list: one collapsible group per stored grade, in
    grade order, each listing that grade's students in list order. Every
    grade gets a group, even one without students. */
module StudentList {
  import opened Records
  import opened Seqs
  import opened ViewState
  import StudentRegistry

  /** A grade's group as shown: its students and whether it is open. */
  datatype Group = Group(grade: Grade, students: seq<Student>, expanded: bool)

  /** `getStudentsForGrade`. */
  function StudentsForGrade(students: seq<Student>, gradeId: string): (r: seq<Student>)
    ensures forall i :: 0 <= i < |r| ==> r[i] in students && r[i].gradeId == gradeId
    ensures forall i :: 0 <= i < |students| && students[i].gradeId == gradeId ==> students[i] in r
    ensures |r| == CountIf(StudentRegistry.InGrade(gradeId), students)
    ensures IsSubsequence(r, students)
  {
    StudentRegistry.OfGrade(students, gradeId)
  }

  /** The ids of the grades. */
  function GradeIds(grades: seq<Grade>): (ids: set<string>)
    ensures forall i :: 0 <= i < |grades| ==> grades[i].id in ids
    ensures forall id :: id in ids ==> exists i :: 0 <= i < |grades| && grades[i].id == id
  {
    set i | 0 <= i < |grades| :: grades[i].id
  }

  /** The map the list's effect sets up: every grade open. */
  function InitialExpanded(grades: seq<Grade>): (flags: Flags)
    ensures forall i :: 0 <= i < |grades| ==> IsExpanded(flags, grades[i].id)
    ensures flags.Keys == GradeIds(grades)
  {
    map id | id in GradeIds(grades) :: true
  }

  /** The groups in grade order. */
  function Groups(grades: seq<Grade>, students: seq<Student>, flags: Flags): (r: seq<Group>)
    ensures |r| == |grades|
    ensures forall i :: 0 <= i < |r| ==>
      && r[i].grade == grades[i]
      && r[i].students == StudentsForGrade(students, grades[i].id)
      && (r[i].expanded <==> IsExpanded(flags, grades[i].id))
  {
    seq(|grades|, i requires 0 <= i < |grades| =>
      Group(grades[i], StudentsForGrade(students, grades[i].id), IsExpanded(flags, grades[i].id)))
  }

  /** A student whose grade id names no stored grade is in no group, and
      showing the list is not an error. */
  lemma DanglingStudentNotListed(grades: seq<Grade>, students: seq<Student>, flags: Flags, st: Student)
    requires forall i :: 0 <= i < |grades| ==> grades[i].id != st.gradeId
    ensures forall i :: 0 <= i < |grades| ==> st !in Groups(grades, students, flags)[i].students
  {
  }

  /** Every student whose grade is stored is listed in that grade's group. */
  lemma StoredGradeListed(grades: seq<Grade>, students: seq<Student>, flags: Flags, k: nat, j: nat)
    requires k < |students| && j < |grades| && students[k].gradeId == grades[j].id
    ensures students[k] in Groups(grades, students, flags)[j].students
  {
  }

  /** When the list appears every group is open; a toggle then closes only
      that group. */
  lemma OpenThenToggle(grades: seq<Grade>, students: seq<Student>, key: string)
    ensures forall i :: 0 <= i < |grades| ==> Groups(grades, students, InitialExpanded(grades))[i].expanded
    ensures forall i :: 0 <= i < |grades| ==>
      (Groups(grades, students, ToggleFlag(InitialExpanded(grades), key))[i].expanded <==> grades[i].id != key)
  {
  }
}

=== FILE: student_management.dfy ===
/** The student screen: the student list it keeps in memory, loaded from the
    `students` entry when the screen opens and written back to that entry
    after every change, and the add, delete and update handlers it passes
    to the entry form and the list. */
module StudentManagement {
  import opened Wrappers
  import opened Records
  import opened Seqs
  import Store
  import StudentRegistry
  import BulkStudentUpload

  /** The screen's state: its in-memory list and the storage it writes. */
  datatype Manager = Manager(students: seq<Student>, store: Store.Store)

  /** The stored list is the list on screen. */
  predicate Persisted(m: Manager) {
    Store.LoadStudents(m.store) == m.students
  }

  /** The state after the list becomes `students`: the storage effect runs
      on every change of the list and writes it under the `students` key. */
  function Commit(m: Manager, students: seq<Student>): (r: Manager)
    ensures r.students == students
    ensures Persisted(r)
    ensures Store.OthersUnchanged(m.store, r.store, Store.StudentsKey)
  {
    Manager(students, Store.SaveStudents(m.store, students))
  }

  /** The screen opens: the list is read from storage (empty when there is
      none) and the effect's first run writes it straight back. */
  function Mount(store: Store.Store): (m: Manager)
    ensures m.students == Store.LoadStudents(store)
    ensures Persisted(m)
    ensures Store.OthersUnchanged(store, m.store, Store.StudentsKey)
  {
    var students := Store.LoadStudents(store);
    Commit(Manager(students, store), students)
  }

  /** `handleAddStudent`: the student goes at the end. */
  function HandleAdd(m: Manager, st: Student): (r: Manager)
    ensures |r.students| == |m.students| + 1
    ensures r.students[..|m.students|] == m.students && r.students[|m.students|] == st
    ensures Persisted(r)
    ensures Store.OthersUnchanged(m.store, r.store, Store.StudentsKey)
  {
    Commit(m, StudentRegistry.Append(m.students, st))
  }

  /** `handleDeleteStudent`: every student with that id goes. */
  function HandleDelete(m: Manager, id: string): (r: Manager)
    ensures forall i :: 0 <= i < |r.students| ==> r.students[i] in m.students && r.students[i].id != id
    ensures forall i :: 0 <= i < |m.students| && m.students[i].id != id ==> m.students[i] in r.students
    ensures |r.students| == CountIf(StudentRegistry.NotId(id), m.students)
    ensures IsSubsequence(r.students, m.students)
    ensures Persisted(r)
    ensures Store.OthersUnchanged(m.store, r.store, Store.StudentsKey)
  {
    Commit(m, StudentRegistry.Delete(m.students, id))
  }

  /** `handleUpdateStudent`: records with the updated record's id are
      replaced, all others stay. */
  function HandleUpdate(m: Manager, updated: Student): (r: Manager)
    ensures |r.students| == |m.students|
    ensures forall i :: 0 <= i < |r.students| ==>
      r.students[i] == (if m.students[i].id == updated.id then updated else m.students[i])
    ensures Persisted(r)
    ensures Store.OthersUnchanged(m.store, r.store, Store.StudentsKey)
  {
    Commit(m, StudentRegistry.Update(m.students, updated))
  }

  /** Deleting an id nobody has leaves the screen and the stored list as
      they were. */
  lemma HandleDeleteAbsent(m: Manager, id: string)
    requires Persisted(m)
    requires forall i :: 0 <= i < |m.students| ==> m.students[i].id != id
    ensures HandleDelete(m, id).students == m.students
    ensures Store.LoadStudents(HandleDelete(m, id).store) == Store.LoadStudents(m.store)
  {
    StudentRegistry.DeleteAbsent(m.students, id);
  }

  /** A second delete of the same id changes nothing more. */
  lemma HandleDeleteIdempotent(m: Manager, id: string)
    ensures HandleDelete(HandleDelete(m, id), id).students == HandleDelete(m, id).students
  {
    StudentRegistry.DeleteIdempotent(m.students, id);
  }

  /** Updating an id nobody has changes no record. */
  lemma HandleUpdateAbsent(m: Manager, updated: Student)
    requires forall i :: 0 <= i < |m.students| ==> m.students[i].id != updated.id
    ensures HandleUpdate(m, updated).students == m.students
  {
    StudentRegistry.UpdateAbsent(m.students, updated);
  }

  // ---------------------------------------------------------------------
  // The bulk import beside the list.

  /** The page as written: the list's in-memory students, the upload
      component's own copy when it is shown (read from storage when it
      appears), and the storage both write to. */
  datatype PageAsWritten = PageAsWritten(
    manager: seq<Student>,
    uploader: Option<seq<Student>>,
    store: Store.Store)

  function OpenPageAsWritten(store: Store.Store): (p: PageAsWritten)
    ensures p.manager == Store.LoadStudents(store) && p.uploader.None?
  {
    var m := Mount(store);
    PageAsWritten(m.students, None, m.store)
  }

  /** Choosing bulk entry mounts the upload component on the current
      storage. */
  function OpenBulkAsWritten(p: PageAsWritten): (r: PageAsWritten)
    ensures r.manager == p.manager
    ensures r.uploader == Some(Store.LoadStudents(p.store))
  {
    var u := BulkStudentUpload.MountUploader(p.store);
    PageAsWritten(p.manager, Some(u.students), u.store)
  }

  /** An upload appends to the component's own copy and writes that copy;
      the list's students do not change. */
  function UploadAsWritten(p: PageAsWritten, selectedGrade: string, file: Option<BulkStudentUpload.CsvFile>,
                           ids: nat -> string): (r: PageAsWritten)
    ensures r.manager == p.manager
    ensures p.uploader.None? ==> r == p
  {
    match p.uploader
    case None => p
    case Some(students) =>
      var u := BulkStudentUpload.UploadAsWritten(
        BulkStudentUpload.Uploader(students, p.store), selectedGrade, file, ids);
      PageAsWritten(p.manager, Some(u.students), u.store)
  }

  /** A delete from the list filters the list's own students and writes
      them over whatever is stored. */
  function DeleteAsWritten(p: PageAsWritten, id: string): (r: PageAsWritten)
    ensures r.manager == StudentRegistry.Delete(p.manager, id)
    ensures Store.LoadStudents(r.store) == r.manager
  {
    var m := HandleDelete(Manager(p.manager, p.store), id);
    PageAsWritten(m.students, p.uploader, m.store)
  }

  /** The lost update: open the page, switch to bulk entry, import a file,
      then delete any student from the list. Every imported student that
      was not already on the list is gone from storage. */
  lemma LostUpdateAsWritten(store: Store.Store, selectedGrade: string, file: BulkStudentUpload.CsvFile,
                            ids: nat -> string, id: string)
    requires BulkStudentUpload.Import(Store.LoadStudents(store), selectedGrade, Some(file), ids).Success?
    ensures var p := UploadAsWritten(OpenBulkAsWritten(OpenPageAsWritten(store)), selectedGrade, Some(file), ids);
      var added := BulkStudentUpload.ParseStudents(file.text, selectedGrade, ids);
      && Store.LoadStudents(p.store) == Store.LoadStudents(store) + added
      && forall k :: 0 <= k < |added| && added[k] !in Store.LoadStudents(store) ==>
           added[k] !in Store.LoadStudents(DeleteAsWritten(p, id).store)
  {
    var p0 := OpenPageAsWritten(store);
    var p1 := OpenBulkAsWritten(p0);
    var p2 := UploadAsWritten(p1, selectedGrade, Some(file), ids);
    var before := Store.LoadStudents(store);
    var imported := BulkStudentUpload.Import(before, selectedGrade, Some(file), ids).value;
    assert imported == before + BulkStudentUpload.ParseStudents(file.text, selectedGrade, ids) by {
      assert imported == imported[..|before|] + imported[|before|..];
    }
  }

  /** The instance, from a state the page can show: one stored grade `g`
      and one stored student `s` of that grade, so the uploader offers `g`
      and the list shows `s` with its delete button. Importing the
      two-student example file into `g` stores three students; deleting
      `s` from the list then leaves none, so both imported students are
      lost. */
  lemma LostUpdateExample(store: Store.Store, g: Grade, s: Student, ids: nat -> string)
    requires Store.LoadGrades(store) == [g] && Store.LoadStudents(store) == [s]
    requires g.id != "" && s.gradeId == g.id
    ensures var p := UploadAsWritten(OpenBulkAsWritten(OpenPageAsWritten(store)), g.id,
                                     Some(BulkStudentUpload.CsvFile("text/csv", BulkStudentUpload.ExampleText)), ids);
      && p.manager == [s]
      && |Store.LoadStudents(p.store)| == 3
      && Store.LoadStudents(DeleteAsWritten(p, s.id).store) == []
  {
    var file := BulkStudentUpload.CsvFile("text/csv", BulkStudentUpload.ExampleText);
    BulkStudentUpload.ImportExample(ids);
    assert |BulkStudentUpload.ParseStudents(file.text, "g", ids)| == 2;
    OneStudentLostUpdate(store, s, g.id, file, ids);
  }

  /** With one student stored, an accepted import stores that student and
      the new ones, and deleting the stored student from the list then
      leaves no student stored at all. */
  lemma OneStudentLostUpdate(store: Store.Store, s: Student, selectedGrade: string,
                             file: BulkStudentUpload.CsvFile, ids: nat -> string)
    requires Store.LoadStudents(store) == [s]
    requires BulkStudentUpload.Import([s], selectedGrade, Some(file), ids).Success?
    ensures var p := UploadAsWritten(OpenBulkAsWritten(OpenPageAsWritten(store)), selectedGrade, Some(file), ids);
      && p.manager == [s]
      && Store.LoadStudents(p.store) == [s] + BulkStudentUpload.ParseStudents(file.text, selectedGrade, ids)
      && Store.LoadStudents(DeleteAsWritten(p, s.id).store) == []
  {
    LostUpdateAsWritten(store, selectedGrade, file, ids, s.id);
    DeleteOnlyStudent(s);
  }

  /** Deleting the only student of a one-student list empties it. */
  lemma DeleteOnlyStudent(s: Student)
    ensures StudentRegistry.Delete([s], s.id) == []
  {
  }

  /** The import as intended: the uploaded students are appended through
      the list's own handler, so there is one list and it is the stored
      one. */
  function HandleBulkImport(m: Manager, selectedGrade: string, file: Option<BulkStudentUpload.CsvFile>,
                            ids: nat -> string): (r: Manager)
    ensures BulkStudentUpload.Import(m.students, selectedGrade, file, ids).Failure? ==> r == m
    ensures BulkStudentUpload.Import(m.students, selectedGrade, file, ids).Success? ==>
      && r.students == m.students + BulkStudentUpload.ParseStudents(file.value.text, selectedGrade, ids)
      && Persisted(r)
      && Store.OthersUnchanged(m.store, r.store, Store.StudentsKey)
  {
    match BulkStudentUpload.Import(m.students, selectedGrade, file, ids)
    case Failure(_) => m
    case Success(students) =>
      assert students == students[..|m.students|] + students[|m.students|..];
      Commit(m, students)
  }

  /** With the import going through the list, a later delete keeps every
      imported student whose id is not the deleted one, in storage too. */
  lemma ImportSurvivesDelete(m: Manager, selectedGrade: string, file: BulkStudentUpload.CsvFile,
                             ids: nat -> string, id: string)
    requires BulkStudentUpload.Import(m.students, selectedGrade, Some(file), ids).Success?
    ensures var added := BulkStudentUpload.ParseStudents(file.text, selectedGrade, ids);
      var r := HandleDelete(HandleBulkImport(m, selectedGrade, Some(file), ids), id);
      && Persisted(r)
      && forall k :: 0 <= k < |added| && added[k].id != id ==> added[k] in Store.LoadStudents(r.store)
  {
    var added := BulkStudentUpload.ParseStudents(file.text, selectedGrade, ids);
    var m1 := HandleBulkImport(m, selectedGrade, Some(file), ids);
    forall k | 0 <= k < |added| && added[k].id != id
      ensures added[k] in m1.students
    {
      assert m1.students[|m.students| + k] == added[k];
    }
  }
}

=== FILE: student_registry.dfy ===
/** The student list operations the student screens are built from: append,
    delete by id, replace by id, and the per-grade view. Every one of them
    works on the whole list and returns the new list. */
module StudentRegistry {
  import opened Records
  import opened Seqs

  /** The student is not `id`. */
  function NotId(id: string): Student -> bool {
    (st: Student) => st.id != id
  }

  /** The student belongs to grade `gradeId`. */
  function InGrade(gradeId: string): Student -> bool {
    (st: Student) => st.gradeId == gradeId
  }

  /** `[...prev, newStudent]`. */
  function Append(students: seq<Student>, st: Student): (r: seq<Student>)
    ensures |r| == |students| + 1
    ensures r[..|students|] == students
    ensures r[|students|] == st
  {
    students + [st]
  }

  /** `prev.filter(student => student.id !== studentId)`: every record with
      that id goes, the others stay in their order. */
  function Delete(students: seq<Student>, id: string): (r: seq<Student>)
    ensures forall i :: 0 <= i < |r| ==> r[i] in students && r[i].id != id
    ensures forall i :: 0 <= i < |students| && students[i].id != id ==> students[i] in r
    ensures |r| == CountIf(NotId(id), students)
    ensures IsSubsequence(r, students)
  {
    FilterIsSubsequence(NotId(id), students);
    Filter(NotId(id), students)
  }

  /** Deleting an id no student has changes nothing. */
  lemma DeleteAbsent(students: seq<Student>, id: string)
    requires forall i :: 0 <= i < |students| ==> students[i].id != id
    ensures Delete(students, id) == students
  {
    FilterKeepsAll(NotId(id), students);
  }

  /** Deleting is idempotent. */
  lemma DeleteIdempotent(students: seq<Student>, id: string)
    ensures Delete(Delete(students, id), id) == Delete(students, id)
  {
    FilterIdempotent(NotId(id), students);
  }

  /** `prev.map(s => s.id === updated.id ? updated : s)`: each record with
      the updated record's id is replaced by it and every other record stays
      where and what it was. */
  function Update(students: seq<Student>, updated: Student): (r: seq<Student>)
    ensures |r| == |students|
    ensures forall i :: 0 <= i < |r| ==> r[i].id == students[i].id
    ensures forall i :: 0 <= i < |r| && students[i].id == updated.id ==> r[i] == updated
    ensures forall i :: 0 <= i < |r| && students[i].id != updated.id ==> r[i] == students[i]
  {
    seq(|students|, i requires 0 <= i < |students| =>
      if students[i].id == updated.id then updated else students[i])
  }

  /** Updating an id no student has changes nothing. */
  lemma UpdateAbsent(students: seq<Student>, updated: Student)
    requires forall i :: 0 <= i < |students| ==> students[i].id != updated.id
    ensures Update(students, updated) == students
  {
  }

  /** Updating twice with the same record is updating once. */
  lemma UpdateIdempotent(students: seq<Student>, updated: Student)
    ensures Update(Update(students, updated), updated) == Update(students, updated)
  {
  }

  /** `students.filter(student => student.gradeId === gradeId)`: exactly
      the students of that grade, in list order. */
  function OfGrade(students: seq<Student>, gradeId: string): (r: seq<Student>)
    ensures forall i :: 0 <= i < |r| ==> r[i] in students && r[i].gradeId == gradeId
    ensures forall i :: 0 <= i < |students| && students[i].gradeId == gradeId ==> students[i] in r
    ensures |r| == CountIf(InGrade(gradeId), students)
    ensures IsSubsequence(r, students)
  {
    FilterIsSubsequence(InGrade(gradeId), students);
    Filter(InGrade(gradeId), students)
  }
}

=== FILE: student_selector.dfy ===
/** The missing-student picker of the assignment form: it lists the students
    of the chosen grade whose name contains the search text, ignoring case,
    and toggles ids in and out of the selection. */
module StudentSelector {
  import opened Records
  import opened Seqs
  import Text
  import StudentRegistry

  /** The student's name contains the search text, both lowercased. */
  predicate NameMatches(st: Student, term: string) {
    Text.Contains(Text.ToLower(st.name), Text.ToLower(term))
  }

  function NameHas(term: string): Student -> bool {
    (st: Student) => NameMatches(st, term)
  }

  /** The student is in the grade and its name matches. */
  function Shown(gradeId: string, term: string): Student -> bool {
    (st: Student) => st.gradeId == gradeId && NameMatches(st, term)
  }

  /** `gradeStudents`: the grade filter, then the name filter. Together they
      keep exactly the students one test asking both would keep. */
  function VisibleStudents(students: seq<Student>, gradeId: string, term: string): (r: seq<Student>)
    ensures forall i :: 0 <= i < |r| ==> r[i] in students && r[i].gradeId == gradeId && NameMatches(r[i], term)
    ensures forall i :: 0 <= i < |students| && students[i].gradeId == gradeId && NameMatches(students[i], term) ==>
      students[i] in r
    ensures |r| == CountIf(Shown(gradeId, term), students)
    ensures IsSubsequence(r, students)
  {
    var inGrade := StudentRegistry.OfGrade(students, gradeId);
    FilterIsSubsequence(NameHas(term), inGrade);
    SubsequenceTransitive(Filter(NameHas(term), inGrade), inGrade, students);
    FilterFilter(StudentRegistry.InGrade(gradeId), NameHas(term), Shown(gradeId, term), students);
    Filter(NameHas(term), inGrade)
  }

  /** With an empty search text the picker shows the whole grade. */
  lemma EmptySearchShowsGrade(students: seq<Student>, gradeId: string)
    ensures VisibleStudents(students, gradeId, "") == StudentRegistry.OfGrade(students, gradeId)
  {
    var inGrade := StudentRegistry.OfGrade(students, gradeId);
    forall i | 0 <= i < |inGrade| ensures NameHas("")(inGrade[i]) {
      assert Text.ToLower("") == "";
      Text.ContainsEmpty(Text.ToLower(inGrade[i].name));
    }
    FilterKeepsAll(NameHas(""), inGrade);
  }

  /** The search ignores case: a lowercased search text shows the same
      students. */
  lemma SearchIgnoresCase(students: seq<Student>, gradeId: string, term: string)
    ensures VisibleStudents(students, gradeId, Text.ToLower(term)) == VisibleStudents(students, gradeId, term)
  {
    Text.ToLowerIdempotent(term);
    var inGrade := StudentRegistry.OfGrade(students, gradeId);
    FilterSame(NameHas(Text.ToLower(term)), NameHas(term), inGrade);
  }

  /** The id is not `id`. */
  function OtherThan(id: string): string -> bool {
    (x: string) => x != id
  }

  /** `toggleStudent`: a selected id is removed, every occurrence of it; an
      unselected one is appended. */
  function Toggle(selected: seq<string>, id: string): (r: seq<string>)
    ensures id in selected ==> id !in r && IsSubsequence(r, selected)
    ensures id in selected ==> |r| == CountIf(OtherThan(id), selected)
    ensures id !in selected ==> |r| == |selected| + 1 && r[..|selected|] == selected && r[|selected|] == id
    ensures forall x :: x != id ==> (x in r <==> x in selected)
  {
    if id in selected then
      FilterIsSubsequence(OtherThan(id), selected);
      Filter(OtherThan(id), selected)
    else
      selected + [id]
  }

  /** Toggling an unselected id twice gives back the selection. */
  lemma ToggleTwice(selected: seq<string>, id: string)
    requires id !in selected
    ensures Toggle(Toggle(selected, id), id) == selected
  {
    FilterAppend(OtherThan(id), selected, [id]);
    FilterKeepsAll(OtherThan(id), selected);
    assert Filter(OtherThan(id), [id]) == [];
  }

  /** Toggling keeps a selection free of repetitions. */
  lemma ToggleDistinct(selected: seq<string>, id: string)
    requires Distinct(selected)
    ensures Distinct(Toggle(selected, id))
  {
    if id in selected {
      FilterDistinct(OtherThan(id), selected);
    }
  }
}

=== FILE: text.dfy ===
/** The string primitives the forms and the CSV import use: `trim`,
    `toLowerCase`, `toUpperCase`, `includes` and `split` on a one-character
    separator. Characters are treated as ASCII: whitespace is space, tab,
    line feed, carriage return, vertical tab and form feed, and case mapping
    only touches the letters A-Z and a-z. */
module Text {

  predicate IsSpace(c: char) {
    c == ' ' || c == '\t' || c == '\n' || c == '\r' || c == '\U{000B}' || c == '\U{000C}'
  }

  /** Every character of `s` at a position in `lo..hi` is whitespace. */
  predicate SpaceBetween(s: string, lo: int, hi: int)
    requires 0 <= lo && hi <= |s|
  {
    forall k :: lo <= k < hi ==> IsSpace(s[k])
  }

  /** Every character of `s` is whitespace (vacuously true of ""). */
  predicate AllSpace(s: string) {
    SpaceBetween(s, 0, |s|)
  }

  /** Position of the first non-whitespace character at or after `k`, or
      `|s|` when there is none. */
  function SkipSpaces(s: string, k: nat): (i: nat)
    requires k <= |s|
    ensures k <= i <= |s|
    ensures SpaceBetween(s, k, i)
    ensures i < |s| ==> !IsSpace(s[i])
    decreases |s| - k
  {
    if k < |s| && IsSpace(s[k]) then SkipSpaces(s, k + 1) else k
  }

  /** One past the last non-whitespace character before `k` and not before
      `lo`, or `lo` when there is none. */
  function SkipSpacesBack(s: string, lo: nat, k: nat): (j: nat)
    requires lo <= k <= |s|
    ensures lo <= j <= k
    ensures SpaceBetween(s, j, k)
    ensures j > lo ==> !IsSpace(s[j - 1])
    decreases k
  {
    if k > lo && IsSpace(s[k - 1]) then SkipSpacesBack(s, lo, k - 1) else k
  }

  /** `r` is the infix of `s` at `i`, and everything around it is
      whitespace. */
  predicate TrimmedAt(s: string, r: string, i: int) {
    && 0 <= i <= |s| - |r|
    && r == s[i..i + |r|]
    && SpaceBetween(s, 0, i)
    && SpaceBetween(s, i + |r|, |s|)
  }

  /** `String.prototype.trim`: the infix of `s` that neither starts nor ends
      with whitespace, everything cut off on either side being whitespace. */
  function Trim(s: string): (r: string)
    ensures exists i :: TrimmedAt(s, r, i)
    ensures |r| > 0 ==> !IsSpace(r[0]) && !IsSpace(r[|r| - 1])
    ensures r == "" <==> AllSpace(s)
  {
    var i := SkipSpaces(s, 0);
    var j := SkipSpacesBack(s, i, |s|);
    assert TrimmedAt(s, s[i..j], i);
    s[i..j]
  }

  /** Trimming is idempotent. */
  lemma TrimIdempotent(s: string)
    ensures Trim(Trim(s)) == Trim(s)
  {
    var r := Trim(s);
    if |r| > 0 {
      assert SkipSpaces(r, 0) == 0;
      assert SkipSpacesBack(r, 0, |r|) == |r|;
    }
  }

  /** A string that neither starts nor ends with whitespace is its own
      trim. */
  lemma TrimUnchanged(s: string)
    requires |s| > 0 ==> !IsSpace(s[0]) && !IsSpace(s[|s| - 1])
    ensures Trim(s) == s
  {
    assert SkipSpaces(s, 0) == 0;
    assert SkipSpacesBack(s, 0, |s|) == |s|;
  }

  /** The empty string is "empty after trimming" and so is every all-blank
      string; a string with a visible character is not. */
  function IsBlank(s: string): (b: bool)
    ensures b <==> forall i :: 0 <= i < |s| ==> IsSpace(s[i])
  {
    Trim(s) == ""
  }

  function LowerChar(c: char): char {
    if 'A' <= c <= 'Z' then (c as int + 32) as char else c
  }

  function UpperChar(c: char): char {
    if 'a' <= c <= 'z' then (c as int - 32) as char else c
  }

  /** `String.prototype.toLowerCase` on ASCII letters. */
  function ToLower(s: string): (r: string)
    ensures |r| == |s|
    ensures forall i :: 0 <= i < |s| ==> r[i] == LowerChar(s[i])
    ensures forall i :: 0 <= i < |r| ==> !('A' <= r[i] <= 'Z')
  {
    seq(|s|, i requires 0 <= i < |s| => LowerChar(s[i]))
  }

  /** `String.prototype.toUpperCase` on ASCII letters. */
  function ToUpper(s: string): (r: string)
    ensures |r| == |s|
    ensures forall i :: 0 <= i < |s| ==> r[i] == UpperChar(s[i])
    ensures forall i :: 0 <= i < |r| ==> !('a' <= r[i] <= 'z')
  {
    seq(|s|, i requires 0 <= i < |s| => UpperChar(s[i]))
  }

  /** Lower-casing twice is lower-casing once. */
  lemma ToLowerIdempotent(s: string)
    ensures ToLower(ToLower(s)) == ToLower(s)
  {
  }

  /** Upper-casing does not create or destroy whitespace, so it commutes with
      the blankness test. */
  lemma ToUpperKeepsBlank(s: string)
    ensures IsBlank(ToUpper(s)) <==> IsBlank(s)
  {
    var u := ToUpper(s);
    if IsBlank(u) {
      forall i | 0 <= i < |s| ensures IsSpace(s[i]) {
        assert IsSpace(u[i]);
      }
    }
  }

  /** `needle` occurs in `hay` starting at position `i`. */
  predicate OccursAt(hay: string, needle: string, i: int) {
    0 <= i <= |hay| - |needle| && hay[i..i + |needle|] == needle
  }

  /** `String.prototype.includes`: whether `needle` occurs somewhere in
      `hay`. */
  function Contains(hay: string, needle: string): (b: bool)
    ensures b <==> exists i :: OccursAt(hay, needle, i)
    decreases |hay|
  {
    if |needle| <= |hay| && hay[..|needle|] == needle then
      assert OccursAt(hay, needle, 0);
      true
    else if |hay| == 0 then
      false
    else
      var b := Contains(hay[1..], needle);
      if b then
        var j :| OccursAt(hay[1..], needle, j);
        assert hay[1..][j..j + |needle|] == hay[j + 1..j + 1 + |needle|];
        assert OccursAt(hay, needle, j + 1);
        true
      else
        assert forall i :: OccursAt(hay, needle, i) ==> i == 0 || OccursAt(hay[1..], needle, i - 1) by {
          forall i | OccursAt(hay, needle, i) && i != 0
            ensures OccursAt(hay[1..], needle, i - 1)
          {
            assert hay[1..][i - 1..i - 1 + |needle|] == hay[i..i + |needle|];
          }
        }
        false
  }

  /** The empty string occurs in every string. */
  lemma ContainsEmpty(hay: string)
    ensures Contains(hay, "")
  {
    assert OccursAt(hay, "", 0);
  }

  /** Position of the first `sep` in `s`, or `|s|` when there is none. */
  function IndexOf(s: string, sep: char): (i: nat)
    ensures i <= |s|
    ensures sep !in s[..i]
    ensures i < |s| ==> s[i] == sep
  {
    if |s| == 0 then 0
    else if s[0] == sep then 0
    else
      var j := IndexOf(s[1..], sep);
      assert s[..j + 1] == [s[0]] + s[1..][..j];
      j + 1
  }

  /** `String.prototype.split` on a one-character separator: the maximal
      separator-free pieces, in order; "" splits into [""] and a trailing
      separator yields a trailing "". */
  function Split(s: string, sep: char): (r: seq<string>)
    ensures |r| >= 1
    ensures forall k :: 0 <= k < |r| ==> sep !in r[k]
    decreases |s|
  {
    var i := IndexOf(s, sep);
    if i == |s| then
      assert s[..i] == s;
      [s]
    else
      [s[..i]] + Split(s[i + 1..], sep)
  }

  /** The inverse of `Split`: the pieces joined with the separator between
      consecutive ones. */
  function Join(pieces: seq<string>, sep: char): string
    requires |pieces| >= 1
  {
    if |pieces| == 1 then pieces[0]
    else pieces[0] + [sep] + Join(pieces[1..], sep)
  }

  /** Joining the pieces of a split gives back the original text. */
  lemma {:induction false} JoinSplit(s: string, sep: char)
    ensures Join(Split(s, sep), sep) == s
    decreases |s|
  {
    var i := IndexOf(s, sep);
    if i == |s| {
      assert s[..i] == s;
    } else {
      JoinSplit(s[i + 1..], sep);
      var r := Split(s, sep);
      assert r[1..] == Split(s[i + 1..], sep);
      assert s == s[..i] + [sep] + s[i + 1..];
    }
  }

  /** Splitting a join of separator-free pieces gives back the pieces. */
  lemma {:induction false} SplitJoin(pieces: seq<string>, sep: char)
    requires |pieces| >= 1
    requires forall k :: 0 <= k < |pieces| ==> sep !in pieces[k]
    ensures Split(Join(pieces, sep), sep) == pieces
    decreases |pieces|
  {
    var p := pieces[0];
    if |pieces| == 1 {
      SplitFree(p, sep);
    } else {
      SplitCons(p, sep, Join(pieces[1..], sep));
      SplitJoin(pieces[1..], sep);
      assert pieces == [p] + pieces[1..];
    }
  }

  /** A separator-free text splits into itself alone. */
  lemma SplitFree(p: string, sep: char)
    requires sep !in p
    ensures Split(p, sep) == [p]
  {
    IndexOfFree(p, sep, []);
    assert p + [] == p;
    assert p[..|p|] == p;
  }

  /** A separator-free first piece is split off whole at the first
      separator. */
  lemma SplitCons(p: string, sep: char, rest: string)
    requires sep !in p
    ensures Split(p + [sep] + rest, sep) == [p] + Split(rest, sep)
  {
    var s := p + [sep] + rest;
    assert s == p + ([sep] + rest);
    IndexOfFree(p, sep, [sep] + rest);
    assert s[..|p|] == p;
    assert s[|p| + 1..] == rest;
  }

  /** In `p + t` with `p` free of `sep`, the first `sep` is the first one
      of `t`, if `t` starts with one. */
  lemma IndexOfFree(p: string, sep: char, t: string)
    requires sep !in p
    requires t == [] || t[0] == sep
    ensures IndexOf(p + t, sep) == |p|
  {
    var s := p + t;
    var i := IndexOf(s, sep);
    assert s[..|p|] == p;
  }
}

=== FILE: view_state.dfy ===
/** The expand/collapse record of the two grouped lists: a map from grade id
    to flag, where a grade that has no entry reads as collapsed (an absent
    key of a JavaScript object is `undefined`, which is falsy). */
module ViewState {
  type Flags = map<string, bool>

  /** `flags[key]` read as a boolean. */
  predicate IsExpanded(flags: Flags, key: string) {
    key in flags && flags[key]
  }

  /** `{...prev, [key]: !prev[key]}`. */
  function ToggleFlag(flags: Flags, key: string): (r: Flags)
    ensures IsExpanded(r, key) <==> !IsExpanded(flags, key)
    ensures forall k :: k != key ==> (IsExpanded(r, k) <==> IsExpanded(flags, k))
    ensures r.Keys == flags.Keys + {key}
  {
    flags[key := !IsExpanded(flags, key)]
  }

  /** Toggling the same group twice shows every group as before. */
  lemma ToggleTwice(flags: Flags, key: string, other: string)
    ensures IsExpanded(ToggleFlag(ToggleFlag(flags, key), key), other) <==> IsExpanded(flags, other)
  {
  }

  /** A group with no entry yet is expanded by its first toggle. */
  lemma FirstToggleExpands(flags: Flags, key: string)
    requires key !in flags
    ensures IsExpanded(ToggleFlag(flags, key), key)
  {
  }
}

=== FILE: welcome_form.dfy ===
/** The first-run setup form: the teacher's name, the application name and a
    school logo, all required. */
module WelcomeForm {
  import opened Wrappers
  import Text

  /** The logo file chosen: its size in bytes and the data URL its read
      yields. */
  datatype LogoFile = LogoFile(size: nat, dataUrl: string)

  /** The messages the form's error line can show. */
  datatype WelcomeError = LogoTooLarge | NameRequired | AppNameRequired | LogoRequired

  datatype Welcome = Welcome(name: string, logo: string, appName: string, error: Option<WelcomeError>)

  const EmptyWelcome := Welcome("", "", "", None)
  const MaxLogoBytes: nat := 5000000

  /** `handleImageUpload` with the read already finished: an oversized file
      only sets the error; any other replaces the logo and clears the
      error. A read that fails still reaches the load-end handler, which
      stores the reader's `null` result; that is a file whose data URL is
      the empty text, so a failed read clears the logo. */
  function ChooseLogo(w: Welcome, file: Option<LogoFile>): (r: Welcome)
    ensures file.None? ==> r == w
    ensures file.Some? && file.value.size > 5000000 ==> r == w.(error := Some(LogoTooLarge))
    ensures file.Some? && file.value.size <= 5000000 ==> r == w.(logo := file.value.dataUrl, error := None)
  {
    match file
    case None => w
    case Some(f) =>
      if f.size > MaxLogoBytes then w.(error := Some(LogoTooLarge))
      else w.(logo := f.dataUrl, error := None)
  }

  /** What `onComplete` receives. */
  datatype Completion = Completion(name: string, logo: string, appName: string)

  /** `handleSubmit`'s checks in source order; on success the three values
      as typed, untrimmed. */
  function Submit(w: Welcome): (r: Result<Completion, WelcomeError>)
    ensures Text.IsBlank(w.name) ==> r == Failure(NameRequired)
    ensures !Text.IsBlank(w.name) && Text.IsBlank(w.appName) ==> r == Failure(AppNameRequired)
    ensures !Text.IsBlank(w.name) && !Text.IsBlank(w.appName) && w.logo == "" ==> r == Failure(LogoRequired)
    ensures r.Success? <==> !Text.IsBlank(w.name) && !Text.IsBlank(w.appName) && w.logo != ""
    ensures r.Success? ==> r.value == Completion(w.name, w.logo, w.appName)
  {
    if Text.Trim(w.name) == "" then Failure(NameRequired)
    else if Text.Trim(w.appName) == "" then Failure(AppNameRequired)
    else if w.logo == "" then Failure(LogoRequired)
    else Success(Completion(w.name, w.logo, w.appName))
  }

  /** A failed read after a good one clears the logo and the error, so the
      next submit with both names filled in is refused for the missing
      logo. */
  lemma FailedReadDropsLogo(w: Welcome, good: LogoFile, failedSize: nat)
    requires good.size <= 5000000 && good.dataUrl != "" && failedSize <= 5000000
    requires !Text.IsBlank(w.name) && !Text.IsBlank(w.appName)
    ensures ChooseLogo(w, Some(good)).logo != ""
    ensures var r := ChooseLogo(ChooseLogo(w, Some(good)), Some(LogoFile(failedSize, "")));
      r.logo == "" && r.error.None? && Submit(r) == Failure(LogoRequired)
  {
  }

  /** The form after a refused submit shows the reason. */
  function AfterSubmit(w: Welcome): (r: Welcome)
    ensures Submit(w).Failure? ==> r == w.(error := Some(Submit(w).error))
    ensures Submit(w).Success? ==> r == w
  {
    match Submit(w)
    case Failure(e) => w.(error := Some(e))
    case Success(_) => w
  }

  /** An oversized logo never replaces an accepted one. */
  lemma OversizedLogoKeepsLogo(w: Welcome, f: LogoFile)
    requires f.size > MaxLogoBytes
    ensures ChooseLogo(w, Some(f)).logo == w.logo
    ensures Submit(ChooseLogo(w, Some(f))) == Submit(w)
  {
  }
}

=== FILE: wrappers.dfy ===
/** Option and Result values for the record layer's optional fields and
    rejected form submissions. */
module Wrappers {

  /** An optional value: a record field that may be absent (`email?` in the
      record shapes) or a lookup that may find nothing. */
  datatype Option<+T> = None | Some(value: T) {

    /** The value if present, otherwise `default`. */
    function GetOr(default: T): T {
      match this
      case Some(v) => v
      case None => default
    }
  }

  /** The outcome of an operation that either produces a value or is
      rejected with an error and changes nothing. */
  datatype Result<+R, +E> = Success(value: R) | Failure(error: E) {

    predicate IsFailure() {
      Failure?
    }

    function PropagateFailure<U>(): Result<U, E>
      requires Failure?
    {
      Failure(error)
    }

    function Extract(): R
      requires Success?
    {
      value
    }
  }
}
